=== FILE: README.md ===
# Stock ledger

This project is a Dafny model of the stock ledger behind an inventory-management web application
(an Express/MongoDB back end with a React front end). The ledger consists of:

- a product table;
- a category table;
- an append-only stock-movement history.

It also models the rules that change these tables together and the read-side queries over them.

The modules follow the application's files:

| module | models |
|---|---|
| `ProductModel`, `CategoryModel`, `StockHistoryModel` | the three document schemas: fields, defaults, validation, the SKU normalisation and the `isLowStock` virtual |
| `LedgerState` | the database as one class, `Ledger`, with the invariant every write keeps (`Coherent`) |
| `StockController` | `updateStock` (a movement and its history record), `getHistory` and `getAlerts` |
| `ProductController` | `getProducts`, `createProduct`, `updateProduct` (quantity edits write history), `deleteProduct` (cascade to history) and `exportCSV` |
| `CategoryController` | `getCategories` with product counts, and the create, update and delete guards |
| `DashboardController` | `getStats`: counts, valuation, the latest eight movements, the seven-day per-day/per-type totals and the category distribution |
| `AlertsPage`, `DashboardPage`, `PaginationControl` | the front end's urgency classification and restock form, the chart-point grouping loop, and the prev/next rule of the pagination control |
| `Outcomes`, `Collections`, `Sorting`, `Grouping`, `Paging`, `Text` | shared vocabulary: results and HTTP errors, filtering, a stable sort, `$group`-style grouping, `skip`/`limit` paging, and trimming and upper-casing |

The contracts are stated against a few reference definitions that model source lines directly and carry no contract of their own:

- `ProductModel.IsLowStock`: the `isLowStock` virtual, quantity ≤ threshold (backend/models/Product.js:15-17).
- `ProductModel.NormalizeSku`: the SKU's upper-case and trim setters (backend/models/Product.js:5).
- `StockController.MovementEntry`: the history record a movement writes, with the note defaulting to "" (backend/controllers/stockController.js:31-35).
- `DashboardController.InWindow`: a record created at or after seven days before now (backend/controllers/dashboardController.js:20-22).

The central invariant is `LedgerState.Coherent`. It is established by the `Ledger` constructor and kept by every write method. It says that:

- every stored product is valid (quantity and price are at least 0; name and SKU are trimmed and non-empty; the SKU is upper-cased);
- SKUs and category names are unique;
- every history record is consistent (`newQuantity` is what its type and magnitude make of `previousQuantity`);
- every history record refers to an existing product (there are no orphans);
- each product's records chain from the quantity it was created with to its current quantity.

`LedgerState.Reconciliation` derives from this invariant the ledger identity: quantity = initial + Σ(newQuantity − previousQuantity) over the product's records.

Some modelling conventions:

- Prices are integers in minor currency units.
- Timestamps are integers in milliseconds, and the current time is a parameter.
- Identifiers are natural numbers handed out by the store.

## Model

| member | source | states |
|---|---|---|
| ProductModel.CreateErrors | backend/models/Product.js:4-10 | a new product is accepted exactly when the trimmed name and the trimmed, upper-cased SKU are non-empty, a category is given, the quantity (default 0) is at least 0 and a price is given and is at least 0 |
| ProductModel.NewProduct | backend/models/Product.js:4-13 | the stored document is valid, takes quantity 0 and threshold 10 when these are left out, and stores the name trimmed and the SKU upper-cased and trimmed; an invalid body is refused with the failing paths |
| ProductModel.NormalFormSku | backend/models/Product.js:5 | a normalised SKU is trimmed and upper-cased, and a SKU is its own normal form exactly when it is both |
| ProductModel.NormalizeSkuIdempotent | backend/models/Product.js:5 | normalising a stored SKU again changes nothing |
| ProductModel.UpdateErrors | backend/controllers/productController.js:46 | an update with validators checks only the paths it sets: a set name or SKU must not be blank and a set quantity or price must be at least 0 |
| ProductModel.PatchedName | backend/models/Product.js:4 | an update leaves the name alone or stores the new one trimmed |
| ProductModel.PatchedSku | backend/models/Product.js:5 | an update leaves the SKU alone or stores the new one upper-cased and trimmed |
| ProductModel.ApplyPatch | backend/controllers/productController.js:46 | the patched product keeps its id, creator and creation time; each field the patch sets takes the new value, the name trimmed and the SKU upper-cased and trimmed as on create, and each field it leaves out keeps its old value; the result stays valid when the patch passes validation |
| CategoryModel.CategoryUpdateErrors | backend/models/Category.js:4 | a category update fails validation exactly when it sets a name that is blank once trimmed |
| CategoryModel.PatchCategory | backend/controllers/categoryController.js:30 | the patched category keeps its id and creation data, stores a new name trimmed, takes the description and colour the patch sets and keeps the old ones otherwise, and stays valid when the patch passes validation |
| StockHistoryModel.ParseMovementType | backend/models/StockHistory.js:5 | a type is accepted exactly when it is one of IN, OUT and ADJUSTMENT, and it is read back as the same name |
| StockHistoryModel.DeltaBySign | backend/controllers/stockController.js:17-26 | a consistent record changes the quantity by +q for IN, by −q (never more than was in stock) for OUT, and by q − previous for ADJUSTMENT |
| StockHistoryModel.EntriesOf | backend/controllers/stockController.js:46 | the `{ product: id }` query keeps exactly the records of that product |
| StockHistoryModel.OtherThan | backend/controllers/productController.js:67 | `deleteMany({ product: id })` keeps exactly the records of the other products |
| StockHistoryModel.NewestFirst | backend/controllers/stockController.js:51 | `sort('-createdAt')` is a permutation in non-increasing order of creation time |
| StockHistoryModel.ChainTelescopes | backend/controllers/stockController.js:28-35 | a chain of records ends at its start plus the sum of the records' changes |
| StockHistoryModel.NetChangeOfEntries | backend/controllers/stockController.js:28-35 | a product's net change over the whole history is the sum of the changes of its own records |
| StockHistoryModel.EntriesOfAppend | backend/controllers/stockController.js:31-35 | appending a record extends only its own product's record list |
| StockHistoryModel.ChainedSnoc | backend/controllers/stockController.js:31-35 | a record that starts where a product's chain ends extends that chain to the record's new quantity |
| StockHistoryModel.EntriesOfOtherThan | backend/controllers/productController.js:67 | the delete cascade empties the deleted product's records and leaves every other product's records as they were |
| StockHistoryModel.NoEntriesOf | backend/controllers/productController.js:65-66 | a product that no record refers to has no records |
| LedgerState.Ledger.AddProduct | backend/controllers/productController.js:32 | storing a valid product with a free SKU under the next id keeps the store coherent and writes no history |
| LedgerState.Ledger.SaveProduct | backend/controllers/stockController.js:28-35 | overwriting a product and appending either nothing (quantity unchanged) or the one record of its transition keeps the store coherent and changes nothing else |
| LedgerState.Ledger.RemoveProduct | backend/controllers/productController.js:65-67 | removing a product together with all of its records keeps the store coherent (no orphans) |
| LedgerState.Ledger.AddCategory | backend/controllers/categoryController.js:21 | storing a valid category with a free name under the next id keeps the store coherent |
| LedgerState.Ledger.SaveCategory | backend/controllers/categoryController.js:30 | overwriting a category with a valid one whose name no other category holds keeps the store coherent |
| LedgerState.Ledger.RemoveCategory | backend/controllers/categoryController.js:42 | removing a category keeps the store coherent and touches neither products nor history |
| LedgerState.Ledger.ProductRows | backend/controllers/productController.js:76 | `Product.find()` lists every product once, in natural order |
| LedgerState.Ledger.CategoryRows | backend/controllers/categoryController.js:6 | `Category.find()` lists every category once, in natural order |
| LedgerState.Reconciliation | backend/controllers/stockController.js:28-35 | in a coherent store every product's quantity is its initial quantity plus Σ(newQuantity − previousQuantity) over its records, and is never negative |
| LedgerState.SaveKeepsCoherent | backend/controllers/stockController.js:28-35 | the invariant survives a product overwrite plus at most one consistent record of exactly that product's transition |
| LedgerState.AddKeepsCoherent | backend/controllers/productController.js:32 | the invariant survives storing a new valid product with a unique SKU |
| LedgerState.RemoveKeepsCoherent | backend/controllers/productController.js:65-67 | the invariant survives deleting a product together with its records |
| LedgerState.AddCategoryKeepsCoherent | backend/controllers/categoryController.js:21 | the invariant survives storing a new category with a unique name |
| LedgerState.SaveCategoryKeepsCoherent | backend/controllers/categoryController.js:30 | the invariant survives overwriting a category with a valid one that keeps names unique |
| LedgerState.RemoveCategoryKeepsCoherent | backend/controllers/categoryController.js:42 | the invariant survives deleting a category |
| LedgerState.OwnSkuFree | backend/models/Product.js:5 | a stored product's own SKU is held by no other product |
| Sorting.SortBy | backend/controllers/stockController.js:51 | a query's `sort` returns a permutation of its input in ascending key order |
| Grouping.Keys | backend/controllers/dashboardController.js:26 | a `$group` stage yields each key that occurs exactly once, and only keys that occur |
| Grouping.GroupsPartition | backend/controllers/dashboardController.js:31 | the group sizes over the distinct keys add up to the number of grouped documents |
| Paging.PageCount | backend/controllers/stockController.js:54 | `pages` is ⌈total / limit⌉: the least page count whose pages hold all rows, and zero exactly for an empty list |
| Paging.PageSlice | backend/controllers/stockController.js:52-53 | a page is the at most `limit` rows that follow the first (page − 1)·limit rows, and it is empty past the end |
| Paging.Paginate | backend/controllers/stockController.js:52-54 | a listing holds the requested page and the pagination block {total, page, pages, limit} |
| Paging.EveryRowOnItsPage | backend/controllers/stockController.js:52-54 | row i is shown on page i / limit + 1 at position i mod limit, and that page is within `pages` |
| Paging.EveryRowListed | backend/controllers/stockController.js:52-54 | every row is on some page between 1 and `pages` |
| Paging.DescendingPage | backend/controllers/stockController.js:51-53 | a page of a list sorted by descending key is itself sorted that way and holds only rows of the list |
| StockController.CheckRequest | backend/controllers/stockController.js:7-12 | an unknown type is refused first, then a missing, zero or negative quantity for every type (ADJUSTMENT included); otherwise the request is accepted with its type and quantity |
| StockController.ApplyMovement | backend/controllers/stockController.js:17-26 | the new quantity is prev + q for IN, prev − q for OUT and q for ADJUSTMENT; an OUT beyond stock is refused, and an accepted movement never makes stock negative |
| StockController.UpdateStock | backend/controllers/stockController.js:4-41 | an invalid request, an unknown product or an OUT beyond stock is refused in that order and leaves the store unchanged; otherwise the product holds the new quantity, exactly one record {type, q, prev, new, note or ''} is appended, and the store stays coherent |
| StockController.MovementKeepsStoreValid | backend/controllers/stockController.js:28-35 | the write a movement makes leaves the product valid and the appended record consistent with the product's transition |
| StockController.Matching | backend/controllers/stockController.js:46 | the history query selects exactly the given product's records, or every record when no product is given |
| StockController.GetHistory | backend/controllers/stockController.js:43-58 | with page 1 and limit 15 as defaults, the listing is the page-th slice of the matching records newest first: the rows after the first (page − 1) · limit, at most `limit` of them, all matching and newest first; the pagination block echoes page and limit, its total is the number of matching records and its pages are ⌈total / limit⌉; a page or limit below 1 is the paging error |
| StockController.EveryMatchingEntryListed | backend/controllers/stockController.js:47-54 | every matching record is on some page between 1 and `pages` |
| StockController.GetAlerts | backend/controllers/stockController.js:60-68 | the alert list holds exactly the products at or below their threshold, each as often as in the table, in ascending order of quantity |
| StockController.AlertCount | backend/controllers/dashboardController.js:10 | counting the low-stock products gives the length of the alert list, so the dashboard and the alert page agree |
| ProductController.Selection | backend/controllers/productController.js:6-14 | the list keeps exactly the products that match the search term, the exact category and, with lowStock 'true', the low-stock test |
| ProductController.ListOrder | backend/controllers/productController.js:20 | the selection is sorted newest first without losing or adding products |
| ProductController.GetProducts | backend/controllers/productController.js:4-28 | with page 1 and limit 10 as defaults, the listing is the page-th slice of the selection newest first: the rows after the first (page − 1) · limit, at most `limit` of them, every one low on stock under lowStock 'true' and in the requested category under a category filter; the pagination block echoes page and limit, its total is the size of the selection and its pages are ⌈total / limit⌉; a page or limit below 1 is the paging error |
| ProductController.EverySelectedProductListed | backend/controllers/productController.js:16-24 | every selected product is on some page between 1 and `pages` |
| ProductController.CreateProduct | backend/controllers/productController.js:30-38 | an invalid body or a taken SKU is refused and changes nothing; otherwise the product is stored under the next id with no history written, whatever its quantity |
| ProductController.EditEntries | backend/controllers/productController.js:48-55 | an edit records nothing when the quantity is absent or unchanged; otherwise it records exactly one IN (the quantity rose) or OUT (it fell) of \|new − old\| from old to new with the note 'Product edit', which is consistent and never an ADJUSTMENT |
| ProductController.PatchKeepsSkusUnique | backend/controllers/productController.js:46 | a patch whose SKU, if set, belongs to no other product keeps SKUs unique |
| ProductController.UpdateProduct | backend/controllers/productController.js:40-61 | an unknown id gives a 404 first, then invalid fields and a taken SKU are refused; none of these writes a product or history; otherwise the product is patched and the edit's record is appended |
| ProductController.DeleteProduct | backend/controllers/productController.js:63-72 | an unknown id gives a 404 and leaves history untouched; otherwise the product and every record of it are removed, no record of it remains, and the records of every other product are unchanged |
| ProductController.CategoryName | backend/controllers/productController.js:78 | the category column holds the category's name, or is empty when the category is missing |
| ProductController.PriceText | backend/controllers/productController.js:78 | a price is rendered as a decimal number, and a whole amount has no decimal point |
| ProductController.CsvFields | backend/controllers/productController.js:78 | a product's row has one value per header column: name, SKU, category name, quantity, price, supplier and the rendered date |
| ProductController.Quote | backend/controllers/productController.js:79 | every value is wrapped in double quotes |
| ProductController.CsvLines | backend/controllers/productController.js:77-79 | the export's lines are the header line followed by one line per product, in order |
| ProductController.ExportCsv | backend/controllers/productController.js:74-86 | the export is the header line and the product lines joined by '\n'; it starts with the header line and is just that line when there are no products |
| ProductController.CsvLineHasNoNewline | backend/controllers/productController.js:79 | quoting and joining by ',' adds no newline to a line |
| ProductController.LinesHaveNoNewline | backend/controllers/productController.js:77-79 | when no product value contains a newline, no line of the export contains one |
| ProductController.ExportLineCount | backend/controllers/productController.js:77-79 | when no value contains a newline, the export holds exactly one '\n' per product |
| ProductController.CsvLineFields | backend/controllers/productController.js:77-79 | a line of comma-free values holds one comma fewer than it has values, and cut at its commas it gives back each value in double quotes |
| ProductController.ExportSplitsIntoLines | backend/controllers/productController.js:77-79 | when no value contains a newline, cutting the export at '\n' gives back exactly the header line and the product lines |
| ProductController.ExportReadsBack | backend/controllers/productController.js:74-86 | when no value contains a newline or a comma, the export has one line per product after the header, and line i + 1 cut at its commas is product i's seven values, each in double quotes |
| Text.SplitJoin | backend/controllers/productController.js:79 | splitting parts joined by a one-character separator at that character gives the parts back, when no part holds it |
| CategoryController.NewestCategoriesFirst | backend/controllers/categoryController.js:6 | the categories sorted newest first, none lost or added |
| CategoryController.GetCategories | backend/controllers/categoryController.js:4-15 | every category is listed once, newest first, with productCount equal to the number of products that reference it, which is zero exactly when none does |
| CategoryController.ListingCoversCategories | backend/controllers/categoryController.js:6-10 | the list built over the sorted categories lists every category and nothing else |
| CategoryController.ZeroCountsUnused | backend/controllers/categoryController.js:8-9 | every listed count is zero exactly when no product references the category |
| CategoryController.CountZeroIffUnused | backend/controllers/categoryController.js:8 | a category's product count is zero exactly when no product references it |
| CategoryController.InUseIffCounted | backend/controllers/categoryController.js:40 | the delete guard and the listed count agree: a category is in use exactly when its count is positive |
| CategoryController.CreateCategory | backend/controllers/categoryController.js:17-26 | a missing or empty name is refused with 'Name is required', a blank name fails validation, and a taken name is refused, all without change; otherwise the category is stored trimmed, with description '' and colour '#6366f1' by default |
| CategoryController.OwnNameFree | backend/models/Category.js:4 | a stored category's own name is held by no other category |
| CategoryController.UpdateCategory | backend/controllers/categoryController.js:28-36 | validation comes first, then an unknown id gives a 404, then a taken name is refused, all without change; otherwise the category is patched: a new name trimmed, the description and colour the patch sets, every other field kept |
| CategoryController.DeleteCategory | backend/controllers/categoryController.js:38-49 | a category some product references is refused before the existence check; an unknown one gives a 404; neither changes anything; a delete leaves no product referencing the category |
| DashboardController.StockValue | backend/controllers/dashboardController.js:13-14 | the valuation Σ price·quantity is never negative when prices and quantities are not |
| DashboardController.StockValueAppend | backend/controllers/dashboardController.js:13 | the valuation adds up over a split of the products |
| DashboardController.StockValuePermutation | backend/controllers/dashboardController.js:13 | the valuation does not depend on the order in which products are summed |
| DashboardController.RecentActivity | backend/controllers/dashboardController.js:16-19 | the latest movements are min(8, n) records of the history, newest first, and no record left out is newer than one shown |
| DashboardController.TakeNewest | backend/controllers/dashboardController.js:17-19 | a prefix of a newest-first ordering of the history is a sub-multiset of it, stays newest first, and leaves out nothing newer than what it keeps |
| DashboardController.Window | backend/controllers/dashboardController.js:21-25 | the window holds exactly the records created at most seven days before now |
| DashboardController.MovementSeries | backend/controllers/dashboardController.js:21-28 | one group per (day, type) present in the window and no other, each totalling its records' quantities, in ascending day order, with no empty group when every quantity is positive |
| DashboardController.SeriesFacts | backend/controllers/dashboardController.js:24-28 | any reordering of the groups over the window's keys has the properties of the movement series |
| DashboardController.GroupsAreWindowGroups | backend/controllers/dashboardController.js:26 | each group is the non-empty group of its key over the window, with the sum of its quantities |
| DashboardController.EveryRecordGrouped | backend/controllers/dashboardController.js:26 | every record of the window falls in some group |
| DashboardController.GroupKeysDistinct | backend/controllers/dashboardController.js:26 | no two groups share a (day, type) |
| DashboardController.GroupsPositive | backend/controllers/dashboardController.js:26 | with positive quantities every group totals more than zero |
| DashboardController.Shares | backend/controllers/dashboardController.js:31-34 | one share per category key, each counting its products and named by lookup |
| DashboardController.SharesTotal | backend/controllers/dashboardController.js:31 | the share counts add up to the group sizes |
| DashboardController.CategoryDistribution | backend/controllers/dashboardController.js:30-35 | one share per referenced category and no other, each counting its products (at least one) and named after its category, or 'Uncategorized' in '#6366f1' when the category is missing; the counts add up to the number of products |
| DashboardController.SharesOfKeys | backend/controllers/dashboardController.js:31-34 | the shares have distinct categories, positive counts and the looked-up or fallback name and colour |
| DashboardController.EveryProductShared | backend/controllers/dashboardController.js:31 | every product's category has a share |
| DashboardController.GetStats | backend/controllers/dashboardController.js:5-41 | the counts equal the table sizes, the low-stock count equals the size of the alert list, the valuation is Σ price·quantity (0 for an empty store, never negative for valid products), the three series are as above, and the distribution's counts add up to totalProducts |
| AlertsPage.UrgencyOf | frontend/src/pages/Alerts.jsx:34-38 | 'Out of Stock' exactly at quantity 0, 'Critical' exactly when quantity is nonzero and 2·quantity ≤ threshold, 'Low Stock' otherwise: the three labels partition all products |
| AlertsPage.SevereUrgencyIsLowStock | frontend/src/pages/Alerts.jsx:34-38 | for a valid product with a non-negative threshold the two severe labels only occur at or below the threshold |
| AlertsPage.OutOfStockCount | frontend/src/pages/Alerts.jsx:40 | the out-of-stock count is zero exactly when no alert has quantity 0 |
| AlertsPage.RunningLowCount | frontend/src/pages/Alerts.jsx:41 | the running-low count is zero exactly when no alert has stock left |
| AlertsPage.CountsCoverAlerts | frontend/src/pages/Alerts.jsx:40-41 | with non-negative quantities the two counts add up to the number of alerts |
| AlertsPage.CountsMatchUrgency | frontend/src/pages/Alerts.jsx:34-41 | the two counts classify alerts exactly as the urgency labels do |
| AlertsPage.RestockRequest | frontend/src/pages/Alerts.jsx:27 | the restock form sends an IN of the entered quantity with the note, or 'Restock' when the note is empty |
| AlertsPage.AfterRestock | frontend/src/pages/Alerts.jsx:145 | the preview is the current quantity plus the entered one |
| AlertsPage.RestockPreviewAgrees | frontend/src/pages/Alerts.jsx:145 | a positive entry passes the movement checks and leaves exactly the previewed quantity; any other entry is refused for its quantity |
| DashboardPage.Label | frontend/src/pages/Dashboard.jsx:39 | a point's label is the date without its first five characters |
| DashboardPage.LastTotalIsLastGroup | frontend/src/pages/Dashboard.jsx:40 | a (date, type) has a total exactly when some group has that date and type, and the total is the last such group's |
| DashboardPage.ChartData | frontend/src/pages/Dashboard.jsx:35-43 | without movements the chart is empty; otherwise the loop over the keyed object yields exactly the chart, one point per date |
| DashboardPage.StepKeepsChart | frontend/src/pages/Dashboard.jsx:38-41 | each loop step keeps the keyed object equal to the chart of the groups seen so far |
| DashboardPage.ReadBack | frontend/src/pages/Dashboard.jsx:42 | reading the keyed object back in insertion order gives the chart |
| DashboardPage.LaterGroupOverwrites | frontend/src/pages/Dashboard.jsx:40 | a later group for the same date and type replaces the earlier total rather than adding to it |
| DashboardPage.PointOfSnoc | frontend/src/pages/Dashboard.jsx:40 | one more group changes only its own date's point, by assignment under its type |
| DashboardPage.PointOfUnseen | frontend/src/pages/Dashboard.jsx:39 | a date seen for the first time starts from IN 0, OUT 0 and no ADJUSTMENT |
| DashboardPage.OnePointPerDate | frontend/src/pages/Dashboard.jsx:39 | there is exactly one point per distinct date, labelled after it |
| DashboardPage.PointsInFirstOccurrenceOrder | frontend/src/pages/Dashboard.jsx:37-42 | points appear in the order of each date's first occurrence |
| DashboardPage.PointTotals | frontend/src/pages/Dashboard.jsx:39-40 | IN and OUT default to zero, while ADJUSTMENT is absent exactly when the date has no ADJUSTMENT group |
| DashboardPage.LastGroupWins | frontend/src/pages/Dashboard.jsx:40 | the last group of a type for a date is the one whose total the point shows |
| PaginationControl.Pagination | frontend/src/components/ui/index.jsx:79-94 | nothing is shown without a pagination block or with at most one page; Prev is disabled exactly when page ≤ 1 and Next exactly when page ≥ pages |
| PaginationControl.Click | frontend/src/components/ui/index.jsx:89-94 | an enabled Prev asks for page − 1 and an enabled Next for page + 1; a disabled button asks for nothing |
| PaginationControl.ClickStaysInRange | frontend/src/components/ui/index.jsx:89-94 | starting between 1 and pages, every click the control allows stays between 1 and pages |
| PaginationControl.NeighbourPagesHaveRows | frontend/src/components/ui/index.jsx:89-94 | on a page the query returned, an enabled Next leads to a page with rows, and Prev from page 2 or later does too |

## Left out

- Request bodies are modelled as the schema's typed plain fields. This applies to `ProductModel.ProductFields`, `ProductModel.ApplyPatch`, `ProductController.UpdateProduct`, `CategoryModel.PatchCategory` and `StockController.UpdateStock`. The code passes `req.body` unchanged to `findByIdAndUpdate` (backend/controllers/productController.js:46, backend/controllers/categoryController.js:30). The model does not cover:
  - update operators such as `$inc` or `$set`;
  - paths outside the editable fields, such as `createdBy`;
  - non-numeric values, such as `quantity: "abc"`.

  With such bodies the code can change a quantity without writing a history record, push it below zero (update validators do not run on `$inc`), or rewrite the creator, or it fails with a 500. The creator-keeping contracts, `LedgerState.Reconciliation` and the non-negative quantity of `ProductModel.ValidProduct` hold only for bodies of the shape the application's own forms send.
- Concurrency and atomicity are not modelled. Each request is one sequential step, and the product write and the history write in `updateStock`, `updateProduct` and `deleteProduct` happen together. Interleavings and a failure between the two writes are not modelled.
- Storage failures, which the code reports as 500 with the driver's message, are not modelled. The model's `ServerError` stands only for a page or limit the store rejects.
- `StockController.GetHistory` and `ProductController.GetProducts` take page and limit as integers. The code receives strings from the query string. A page below 1 or a limit below 1 is modelled as an error. MongoDB instead treats `limit(0)` as "no limit", reports a negative skip as an error, and treats a negative `limit(-n)` like `limit(n)`; so with page 1 and a negative limit the code answers with n rows and a `pages` value of ⌈total / −n⌉, zero or negative, where the model answers with the paging error. Non-numeric input is not modelled.
- The case-insensitive regular-expression search is modelled as a substring test after upper-casing ASCII letters. Regular-expression syntax in the search term and Unicode case mapping are not modelled.
- Trimming removes a fixed set of whitespace characters. Upper-casing maps only the ASCII letters a–z.
- Uniqueness of SKUs and category names is a write precondition. A taken key is reported as `DuplicateKey`, with no text of the store's message.
- `CreateProduct` does not check that the referenced category exists. The code does not check this either.
- Prices are integers in minor currency units; JavaScript floating point and the progress bar's percentage are not modelled.
- Quantities, thresholds and movement amounts are integers (`int`). The schemas and `Number(quantity)` accept any JavaScript number, so a fractional quantity such as 2.5 can reach the code. Fractional quantities and floating-point rounding of `prevQty + Number(quantity)` are not modelled; `LedgerState.Reconciliation`'s exact equality holds for integer quantities only. The forms' quantity inputs use the browser's default step of 1.
- `ProductController.PriceText` renders the amount as JavaScript prints a two-decimal number. It does not round values that have more decimals.
- Dates are integer millisecond timestamps, and `now` is a parameter:
  - The seven-day window is `now − 7·86400000`, so the daylight-saving effect of `setDate` is not modelled.
  - The day of a record is its UTC day number, by floor division. It stands for the `%Y-%m-%d` string.
  - The CSV's `toLocaleDateString` is a parameter, `dateText`.
- `DashboardPage.ChartData` receives the series with its dates already rendered as "YYYY-MM-DD" strings. The model does not link those strings to the back end's day numbers.
- `populate` is not modelled: `name sku`, `performedBy`, `createdBy` and the category's `name color` are looked up for display only. `toJSON` and the `isLowStock` virtual in responses are not modelled either; `isLowStock` is a predicate.
- Stores return ties in an unspecified order for `sort('-createdAt')` and `sort('quantity')`. The model sorts stably, so ties keep their natural order.
- MongoDB does not specify the order of `$group` output. The model lists groups in first-occurrence order before the day sort. The category distribution is left in first-occurrence order.
- CSV values are quoted without escaping embedded double quotes, as in the code. `ExportLineCount`, `ExportSplitsIntoLines` and `ExportReadsBack` assume no value contains a newline, and `ExportReadsBack` also that none contains a comma.
- `exportCSV`'s HTTP headers and the response envelopes (`success`, `count`) are not modelled.
- Authentication, the user table, routing, the server set-up and all rendering are not part of this model. This includes the pagination control's text and the alert cards' colours.

=== FILE: alerts_page.dfy ===
/** The alerts page: how urgent each low-stock product is, the two headline counts, and the restock form. */
module AlertsPage {
  import opened Outcomes
  import opened Collections
  import opened ProductModel
  import opened StockHistoryModel
  import opened StockController

  /** The three urgency levels a card can show; every product gets exactly one. */
  datatype Urgency = OutOfStock | Critical | LowStock

  function Label(u: Urgency): string {
    match u
    case OutOfStock => "Out of Stock"
    case Critical => "Critical"
    case LowStock => "Low Stock"
  }

  /**
   * A product's urgency: out of stock at exactly zero, critical when at most half the threshold is left
   * (`quantity <= threshold * 0.5`, which for integers is `2 * quantity <= threshold`), low otherwise.
   */
  function UrgencyOf(p: Product): (u: Urgency)
    ensures u == OutOfStock <==> p.quantity == 0
    ensures u == Critical <==> p.quantity != 0 && 2 * p.quantity <= p.lowStockThreshold
    ensures u == LowStock <==> p.quantity != 0 && 2 * p.quantity > p.lowStockThreshold
  {
    if p.quantity == 0 then OutOfStock
    else if 2 * p.quantity <= p.lowStockThreshold then Critical
    else LowStock
  }

  /**
   * For a stored product with a non-negative threshold, the two severe levels only occur below the
   * threshold, and a product that is not running low is never more than "Low Stock".
   */
  lemma SevereUrgencyIsLowStock(p: Product)
    requires ValidProduct(p) && p.lowStockThreshold >= 0
    ensures UrgencyOf(p) != LowStock ==> IsLowStock(p)
    ensures !IsLowStock(p) ==> UrgencyOf(p) == LowStock
    ensures UrgencyOf(p) == Critical ==> 0 < p.quantity && 2 * p.quantity <= p.lowStockThreshold
  {
  }

  predicate IsOut(p: Product) {
    p.quantity == 0
  }

  predicate IsInStock(p: Product) {
    p.quantity > 0
  }

  /** The headline's "out of stock" count. */
  function OutOfStockCount(alerts: seq<Product>): (n: nat)
    ensures n <= |alerts|
    ensures n == 0 <==> forall p :: p in alerts ==> p.quantity != 0
  {
    var r := Filter(alerts, IsOut);
    assert r != [] ==> r[0] in r;
    |r|
  }

  /** The headline's "running low" count: the alerts that still have stock, critical ones included. */
  function RunningLowCount(alerts: seq<Product>): (n: nat)
    ensures n <= |alerts|
    ensures n == 0 <==> forall p :: p in alerts ==> p.quantity <= 0
  {
    var r := Filter(alerts, IsInStock);
    assert r != [] ==> r[0] in r;
    |r|
  }

  /** When no quantity is negative, the two counts split the alerts between them. */
  lemma {:induction false} CountsCoverAlerts(alerts: seq<Product>)
    requires forall i :: 0 <= i < |alerts| ==> alerts[i].quantity >= 0
    ensures OutOfStockCount(alerts) + RunningLowCount(alerts) == |alerts|
  {
    if alerts != [] {
      CountsCoverAlerts(alerts[1..]);
    }
  }

  /** On the alert list of a consistent store, "out of stock" and "running low" are exactly the urgency levels. */
  lemma CountsMatchUrgency(p: Product)
    requires p.quantity >= 0
    ensures IsOut(p) <==> UrgencyOf(p) == OutOfStock
    ensures IsInStock(p) <==> UrgencyOf(p) in {Critical, LowStock}
  {
  }

  const RestockNote := "Restock"

  /** The movement the restock form sends: an IN of the entered quantity, noted "Restock" when left blank. */
  function RestockRequest(entered: int, note: string): (r: MovementRequest)
    ensures ParseMovementType(r.kind) == Some(IN)
    ensures r.quantity == Some(entered)
    ensures r.note.Some? && r.note.value != ""
    ensures note != "" ==> r.note.value == note
  {
    MovementRequest("IN", Some(entered), Some(if note == "" then RestockNote else note))
  }

  /** The form's "after restock" preview. */
  function AfterRestock(current: int, entered: int): (n: int)
    ensures n - current == entered
  {
    current + entered
  }

  /**
   * The preview is what the movement stores: a positive entry passes the request checks as an IN of that
   * quantity and leaves exactly the previewed quantity; any other entry is refused for its quantity.
   */
  lemma RestockPreviewAgrees(p: Product, entered: int, note: string)
    ensures entered > 0 ==>
      && CheckRequest(RestockRequest(entered, note)) == Ok((IN, entered))
      && ApplyMovement(IN, entered, p.quantity) == Some(AfterRestock(p.quantity, entered))
    ensures entered <= 0 ==> CheckRequest(RestockRequest(entered, note)) == Err(BadRequest(QuantityMessage))
  {
  }
}

=== FILE: category.dfy ===
/** The category document and its defaults. */
module CategoryModel {
  import opened Outcomes
  import opened Text
  import opened ProductModel

  const DefaultColor := "#6366f1"

  datatype Category = Category(
    id: CategoryId,
    name: string,
    description: string,
    color: string,
    createdBy: UserId,
    createdAt: int)

  /** A stored category has a trimmed, non-empty name. */
  predicate ValidCategory(c: Category) {
    c.name != "" && Trimmed(c.name)
  }

  /** The fields of a category create or update request body. */
  datatype CategoryFields = CategoryFields(name: Option<string>, description: Option<string>, color: Option<string>)

  /** The update's validation failures: a name it sets must not be blank once trimmed. */
  function CategoryUpdateErrors(f: CategoryFields): (errs: seq<string>)
    ensures errs == [] <==> f.name.None? || Trim(f.name.value) != ""
  {
    if f.name.Some? && Trim(f.name.value) == "" then ["name"] else []
  }

  /** `c` with the fields `f` sets replaced; a new name is stored trimmed. */
  function PatchCategory(c: Category, f: CategoryFields): (u: Category)
    ensures ValidCategory(c) && CategoryUpdateErrors(f) == [] ==> ValidCategory(u)
    ensures u.id == c.id && u.createdBy == c.createdBy && u.createdAt == c.createdAt
    ensures f.name.None? ==> u.name == c.name
    ensures f.name.Some? ==> u.name == Trim(f.name.value)
    ensures u.description == f.description.GetOr(c.description) && u.color == f.color.GetOr(c.color)
  {
    c.(name := PatchedName(c.name, f.name), description := f.description.GetOr(c.description), color := f.color.GetOr(c.color))
  }
}

=== FILE: category_controller.dfy ===
/** The category list with product counts, and the category create/edit/delete actions with their guards. */
module CategoryController {
  import opened Outcomes
  import opened Collections
  import opened Sorting
  import opened Grouping
  import opened Text
  import opened ProductModel
  import opened CategoryModel
  import opened LedgerState

  const NameRequired := "Name is required"
  const CategoryNotFound := "Category not found"
  const CategoryHasProducts := "Cannot delete: category has products"
  const CategoryDeleted := "Category deleted"

  /** A category as the list shows it: the document and the number of products that reference it. */
  datatype CategoryListing = CategoryListing(category: Category, productCount: nat)

  /** The categories newest first (`sort('-createdAt')`). */
  function NewestCategoriesFirst(cs: seq<Category>): (r: seq<Category>)
    ensures multiset(r) == multiset(cs) && |r| == |cs|
    ensures forall i, j :: 0 <= i < j < |r| ==> r[i].createdAt >= r[j].createdAt
  {
    var r := SortBy(cs, (c: Category) => -c.createdAt);
    assert SortedBy(r, (c: Category) => -c.createdAt);
    r
  }

  /**
   * The category list: every category, newest first, each with the number of products whose category
   * is that category; the count is zero exactly when no product references it.
   */
  function GetCategories(categories: seq<Category>, products: seq<Product>): (r: seq<CategoryListing>)
    ensures |r| == |categories|
    ensures forall c :: c in categories <==> exists i :: 0 <= i < |r| && r[i].category == c
    ensures forall i, j :: 0 <= i < j < |r| ==> r[i].category.createdAt >= r[j].category.createdAt
    ensures forall i :: 0 <= i < |r| ==> r[i].productCount == Count(products, CategoryOf, r[i].category.id)
    ensures forall i :: 0 <= i < |r| ==>
      (r[i].productCount == 0 <==> forall p :: p in products ==> p.category != r[i].category.id)
  {
    var sorted := NewestCategoriesFirst(categories);
    var r := seq(|sorted|, i requires 0 <= i < |sorted| =>
      CategoryListing(sorted[i], Count(products, CategoryOf, sorted[i].id)));
    ListingCoversCategories(categories, sorted, r);
    ZeroCountsUnused(products, r);
    r
  }

  /** A listing built over a reordering of the categories lists every category and nothing else. */
  lemma ListingCoversCategories(categories: seq<Category>, sorted: seq<Category>, r: seq<CategoryListing>)
    requires multiset(sorted) == multiset(categories)
    requires |r| == |sorted| && forall i :: 0 <= i < |r| ==> r[i].category == sorted[i]
    ensures forall c :: c in categories <==> exists i :: 0 <= i < |r| && r[i].category == c
  {
    forall c
      ensures c in categories <==> exists i :: 0 <= i < |r| && r[i].category == c
    {
      assert c in categories <==> c in multiset(sorted);
      if c in sorted {
        var i :| 0 <= i < |sorted| && sorted[i] == c;
        assert r[i].category == c;
      }
    }
  }

  /** In a listing whose counts are the product counts, a count is zero exactly when no product uses the category. */
  lemma ZeroCountsUnused(products: seq<Product>, r: seq<CategoryListing>)
    requires forall i :: 0 <= i < |r| ==> r[i].productCount == Count(products, CategoryOf, r[i].category.id)
    ensures forall i :: 0 <= i < |r| ==>
      (r[i].productCount == 0 <==> forall p :: p in products ==> p.category != r[i].category.id)
  {
    forall i | 0 <= i < |r|
      ensures r[i].productCount == 0 <==> forall p :: p in products ==> p.category != r[i].category.id
    {
      CountZeroIffUnused(products, r[i].category.id);
    }
  }

  /** A category's product count is zero exactly when no product references it. */
  lemma CountZeroIffUnused(products: seq<Product>, id: CategoryId)
    ensures Count(products, CategoryOf, id) == 0 <==> forall p :: p in products ==> p.category != id
  {
    if forall p :: p in products ==> p.category != id {
      CountAbsent(products, CategoryOf, id);
    } else {
      var i :| 0 <= i < |products| && products[i].category == id;
      CountPresent(products, CategoryOf, i);
    }
  }

  /** The delete guard and the list agree: a category is in use exactly when its product count is not zero. */
  lemma InUseIffCounted(db: Ledger, id: CategoryId)
    requires Indexes(db.productOrder, db.products)
    ensures CategoryInUse(db.products, id) <==> Count(db.ProductRows(), CategoryOf, id) > 0
  {
    var rows := db.ProductRows();
    CountZeroIffUnused(rows, id);
    if CategoryInUse(db.products, id) {
      var k :| k in db.products && db.products[k].category == id;
      assert k in db.productOrder;
      var i :| 0 <= i < |db.productOrder| && db.productOrder[i] == k;
      assert rows[i] == db.products[k];
    } else {
      forall p | p in rows
        ensures p.category != id
      {
        var i :| 0 <= i < |rows| && rows[i] == p;
        assert db.productOrder[i] in db.products;
      }
    }
  }

  /**
   * Creates a category. A missing or empty name is refused before anything else; a name that is blank
   * once trimmed fails validation; a name another category holds is refused; none of these changes
   * anything. The description and colour take their defaults when left out.
   */
  method CreateCategory(db: Ledger, f: CategoryFields, actor: UserId, now: int) returns (r: Result<Category>)
    requires db.Valid()
    modifies db
    ensures db.Valid()
    ensures r.Err? ==> unchanged(db)
    ensures f.name.None? || f.name.value == "" ==> r == Err(BadRequest(NameRequired))
    ensures f.name.Some? && f.name.value != "" && Trim(f.name.value) == "" ==> r == Err(Invalid(["name"]))
    ensures f.name.Some? && Trim(f.name.value) != "" && NameTaken(old(db.categories), Trim(f.name.value), None) ==>
      r == Err(DuplicateKey("name"))
    ensures r.Ok? <==>
      && f.name.Some? && Trim(f.name.value) != ""
      && !NameTaken(old(db.categories), Trim(f.name.value), None)
    ensures r.Ok? ==>
      && r.value == Category(old(db.nextId), Trim(f.name.value), f.description.GetOr(""),
                             f.color.GetOr(DefaultColor), actor, now)
      && db.categories == old(db.categories)[r.value.id := r.value]
      && db.categoryOrder == old(db.categoryOrder) + [r.value.id]
      && db.nextId == old(db.nextId) + 1
      && db.products == old(db.products) && db.productOrder == old(db.productOrder)
      && db.history == old(db.history) && db.initial == old(db.initial)
  {
    if f.name.None? || f.name.value == "" {
      return Err(BadRequest(NameRequired));
    }
    var name := Trim(f.name.value);
    if name == "" {
      return Err(Invalid(["name"]));
    }
    if NameTaken(db.categories, name, None) {
      return Err(DuplicateKey("name"));
    }
    TrimFixedPoints(f.name.value);
    var category := Category(db.nextId, name, f.description.GetOr(""), f.color.GetOr(DefaultColor), actor, now);
    db.AddCategory(category);
    r := Ok(category);
  }

  /** A stored category's own name is held by no other category. */
  lemma OwnNameFree(s: Snapshot, id: CategoryId)
    requires Coherent(s) && id in s.categories
    ensures !NameTaken(s.categories, s.categories[id].name, Some(id))
  {
    var cs := s.categories;
    forall k | k in cs && Some(k) != Some(id)
      ensures cs[k].name != cs[id].name
    {
    }
  }

  /**
   * Edits category `id`. Validation comes first (a name set blank is refused even for an unknown id),
   * then an unknown id is refused, then a name another category holds; none of these changes anything.
   */
  method UpdateCategory(db: Ledger, id: CategoryId, f: CategoryFields) returns (r: Result<Category>)
    requires db.Valid()
    modifies db
    ensures db.Valid()
    ensures r.Err? ==> unchanged(db)
    ensures CategoryUpdateErrors(f) != [] ==> r == Err(Invalid(CategoryUpdateErrors(f)))
    ensures CategoryUpdateErrors(f) == [] && id !in old(db.categories) ==> r == Err(NotFound(CategoryNotFound))
    ensures CategoryUpdateErrors(f) == [] && id in old(db.categories) && f.name.Some? &&
            NameTaken(old(db.categories), Trim(f.name.value), Some(id)) ==>
      r == Err(DuplicateKey("name"))
    ensures r.Ok? <==>
      && CategoryUpdateErrors(f) == [] && id in old(db.categories)
      && !(f.name.Some? && NameTaken(old(db.categories), Trim(f.name.value), Some(id)))
    ensures r.Ok? ==>
      && r.value == PatchCategory(old(db.categories[id]), f)
      && db.categories == old(db.categories)[id := r.value]
      && db.categoryOrder == old(db.categoryOrder) && db.nextId == old(db.nextId)
      && db.products == old(db.products) && db.productOrder == old(db.productOrder)
      && db.history == old(db.history) && db.initial == old(db.initial)
  {
    var errs := CategoryUpdateErrors(f);
    if errs != [] {
      return Err(Invalid(errs));
    }
    if id !in db.categories {
      return Err(NotFound(CategoryNotFound));
    }
    if f.name.Some? && NameTaken(db.categories, Trim(f.name.value), Some(id)) {
      return Err(DuplicateKey("name"));
    }
    var updated := PatchCategory(db.categories[id], f);
    if f.name.None? {
      OwnNameFree(db.State(), id);
    }
    db.SaveCategory(updated);
    r := Ok(updated);
  }

  /**
   * Deletes category `id`. A category some product references is refused first, even when the id is
   * unknown; an unknown id is refused next; neither changes anything. A delete never leaves a product
   * that references the deleted category.
   */
  method DeleteCategory(db: Ledger, id: CategoryId) returns (r: Result<string>)
    requires db.Valid()
    modifies db
    ensures db.Valid()
    ensures r.Err? ==> unchanged(db)
    ensures CategoryInUse(old(db.products), id) ==> r == Err(BadRequest(CategoryHasProducts))
    ensures !CategoryInUse(old(db.products), id) && id !in old(db.categories) ==> r == Err(NotFound(CategoryNotFound))
    ensures r.Ok? <==> !CategoryInUse(old(db.products), id) && id in old(db.categories)
    ensures r.Ok? ==>
      && r.value == CategoryDeleted
      && db.categories == old(db.categories) - {id}
      && db.categoryOrder == Without(old(db.categoryOrder), id)
      && db.nextId == old(db.nextId)
      && db.products == old(db.products) && db.productOrder == old(db.productOrder)
      && db.history == old(db.history) && db.initial == old(db.initial)
    ensures r.Ok? ==> forall k :: k in db.products ==> db.products[k].category != id
  {
    if CategoryInUse(db.products, id) {
      return Err(BadRequest(CategoryHasProducts));
    }
    if id !in db.categories {
      return Err(NotFound(CategoryNotFound));
    }
    db.RemoveCategory(id);
    r := Ok(CategoryDeleted);
  }
}

=== FILE: collections.dfy ===
/** Small sequence utilities shared by the tables and the queries. */
module Collections {

  predicate Distinct<T(==)>(s: seq<T>) {
    forall i, j :: 0 <= i < j < |s| ==> s[i] != s[j]
  }

  /** `order` lists every key of `m` exactly once: the natural order of a collection. */
  ghost predicate Indexes<K(!new), V>(order: seq<K>, m: map<K, V>) {
    Distinct(order) && forall k :: k in order <==> k in m
  }

  /** `s` without any occurrence of `x`, the rest in their original order. */
  function Without<T(==, !new)>(s: seq<T>, x: T): (r: seq<T>)
    ensures forall y :: y in r <==> y in s && y != x
    ensures Distinct(s) ==> Distinct(r)
    ensures |r| <= |s|
  {
    if s == [] then []
    else if s[0] == x then Without(s[1..], x)
    else
      var rest := Without(s[1..], x);
      assert Distinct(s) ==> s[0] !in s[1..];
      [s[0]] + rest
  }

  /** The elements of `s` that satisfy `p`, in order. */
  function Filter<T(!new)>(s: seq<T>, p: T -> bool): (r: seq<T>)
    ensures forall x :: x in r <==> x in s && p(x)
    ensures multiset(r) <= multiset(s)
    ensures |r| <= |s|
  {
    if s == [] then []
    else
      assert s == [s[0]] + s[1..];
      if p(s[0]) then [s[0]] + Filter(s[1..], p)
      else Filter(s[1..], p)
  }

  /** At most the first `n` elements of `s` (a query's `.limit(n)`). */
  function Take<T>(s: seq<T>, n: nat): (r: seq<T>)
    ensures |r| <= n && |r| <= |s|
    ensures |s| <= n ==> r == s
    ensures r <= s
  {
    if |s| <= n then s else s[..n]
  }

  /** A table's rows, in the order `order` lists their keys. */
  function Rows<K, V>(m: map<K, V>, order: seq<K>): (r: seq<V>)
    requires forall k :: k in order ==> k in m
    ensures |r| == |order|
    ensures forall i :: 0 <= i < |order| ==> r[i] == m[order[i]]
  {
    seq(|order|, i requires 0 <= i < |order| => m[order[i]])
  }

  /** A key list without repetitions has exactly as many entries as the set it enumerates. */
  lemma {:induction false} DistinctSize<T>(s: seq<T>)
    requires Distinct(s)
    ensures |set x | x in s| == |s|
  {
    if s != [] {
      DistinctSize(s[1..]);
      assert (set x | x in s) == {s[0]} + (set x | x in s[1..]);
      assert s[0] !in s[1..];
    }
  }

  /** In a sequence without repetitions every element occurs at most once. */
  lemma {:induction false} DistinctMultiplicity<T>(s: seq<T>, x: T)
    requires Distinct(s)
    ensures multiset(s)[x] <= 1
  {
    if s != [] {
      assert s == [s[0]] + s[1..];
      DistinctMultiplicity(s[1..], x);
      assert s[0] !in s[1..];
    }
  }

  /** Reordering a sequence without repetitions leaves it without repetitions. */
  lemma PermutationKeepsDistinct<T>(s: seq<T>, r: seq<T>)
    requires Distinct(s) && multiset(r) == multiset(s)
    ensures Distinct(r)
  {
    forall i, j | 0 <= i < j < |r|
      ensures r[i] != r[j]
    {
      if r[i] == r[j] {
        assert r == r[..j] + r[j..];
        assert r[i] in r[..j] && r[j] in r[j..];
        assert multiset(r)[r[j]] == multiset(r[..j])[r[j]] + multiset(r[j..])[r[j]];
        DistinctMultiplicity(s, r[j]);
        assert false;
      }
    }
  }

  /** Taking the first element of `a` out of a permutation `b` of it leaves a permutation of the rest. */
  lemma PermutationTail<T>(a: seq<T>, b: seq<T>, j: int)
    requires a != [] && multiset(a) == multiset(b) && 0 <= j < |b| && b[j] == a[0]
    ensures multiset(a[1..]) == multiset(b[..j] + b[j + 1..])
  {
    assert a == [a[0]] + a[1..];
    assert b == b[..j] + [b[j]] + b[j + 1..];
    assert multiset(a[1..]) == multiset(a) - multiset{a[0]};
  }

  /** A collection indexed by `order` has as many rows as `order` has keys. */
  lemma IndexedSize<K(!new), V>(order: seq<K>, m: map<K, V>)
    requires Indexes(order, m)
    ensures |m| == |order|
  {
    DistinctSize(order);
    assert (set x | x in order) == m.Keys;
  }
}

=== FILE: dashboard_controller.dfy ===
/**
 * The dashboard overview: table sizes, the low-stock count, the stock valuation, the latest movements,
 * the seven-day movement totals per day and type, and the distribution of products over categories.
 * Everything here reads the store and nothing writes it.
 */
module DashboardController {
  import opened Collections
  import opened Sorting
  import opened Grouping
  import opened ProductModel
  import opened CategoryModel
  import opened StockHistoryModel
  import opened LedgerState
  import opened StockController

  /** How many movements the overview lists. */
  const RecentLimit: nat := 8
  const DayMillis := 86400000
  /** The movement series covers the last seven days. */
  const WindowMillis := 7 * DayMillis
  /** Name and colour of the bucket for products whose category is not in the category table. */
  const Uncategorized := "Uncategorized"
  const FallbackColor := "#6366f1"

  datatype Stats = Stats(totalProducts: nat, totalCategories: nat, lowStockProducts: nat, totalStockValue: int)

  /** The total quantity moved by the records of one type on one (UTC) day. */
  datatype MovementGroup = MovementGroup(day: int, kind: MovementType, total: int)

  /** The number of products that refer to one category, with that category's name and colour. */
  datatype CategoryShare = CategoryShare(category: CategoryId, name: string, color: string, count: nat)

  datatype Overview = Overview(
    stats: Stats,
    recentActivity: seq<HistoryEntry>,
    stockMovements: seq<MovementGroup>,
    productsByCategory: seq<CategoryShare>)

  // Valuation

  /** The value of one product's stock, in minor currency units. */
  function Worth(p: Product): int {
    p.price * p.quantity
  }

  /** Σ price·quantity over `ps`; zero when there are no products. */
  function StockValue(ps: seq<Product>): (v: int)
    ensures (forall i :: 0 <= i < |ps| ==> ps[i].price >= 0 && ps[i].quantity >= 0) ==> v >= 0
  {
    if ps == [] then 0
    else
      assert forall i :: 0 <= i < |ps[1..]| ==> ps[1..][i] == ps[i + 1];
      Worth(ps[0]) + StockValue(ps[1..])
  }

  /** The valuation adds up over a split of the products. */
  lemma {:induction false} StockValueAppend(a: seq<Product>, b: seq<Product>)
    ensures StockValue(a + b) == StockValue(a) + StockValue(b)
  {
    if a == [] {
      assert a + b == b;
    } else {
      assert (a + b)[1..] == a[1..] + b;
      StockValueAppend(a[1..], b);
    }
  }

  /** The valuation does not depend on the order in which the products are visited. */
  lemma {:induction false} StockValuePermutation(a: seq<Product>, b: seq<Product>)
    requires multiset(a) == multiset(b)
    ensures StockValue(a) == StockValue(b)
  {
    if a == [] {
      assert |b| == |multiset(b)| == 0;
    } else {
      var x := a[0];
      assert x in multiset(b);
      var j :| 0 <= j < |b| && b[j] == x;
      var rest := b[..j] + b[j + 1..];
      PermutationTail(a, b, j);
      StockValuePermutation(a[1..], rest);
      assert b == b[..j] + ([x] + b[j + 1..]);
      StockValueAppend(b[..j], [x] + b[j + 1..]);
      StockValueAppend(b[..j], b[j + 1..]);
      assert ([x] + b[j + 1..])[1..] == b[j + 1..];
    }
  }

  // Recent activity

  /** The latest movements: at most eight, newest first, and none left out that is newer than one shown. */
  function RecentActivity(h: seq<HistoryEntry>): (r: seq<HistoryEntry>)
    ensures |r| == if |h| < RecentLimit then |h| else RecentLimit
    ensures multiset(r) <= multiset(h)
    ensures forall i, j :: 0 <= i < j < |r| ==> r[i].createdAt >= r[j].createdAt
    ensures forall e :: e in multiset(h) - multiset(r) ==> forall i :: 0 <= i < |r| ==> e.createdAt <= r[i].createdAt
  {
    var sorted := NewestFirst(h);
    TakeNewest(h, sorted, RecentLimit);
    Take(sorted, RecentLimit)
  }

  /** Taking a prefix of a newest-first ordering of `h` keeps that order and leaves out nothing newer than what it keeps. */
  lemma TakeNewest(h: seq<HistoryEntry>, sorted: seq<HistoryEntry>, n: nat)
    requires multiset(sorted) == multiset(h)
    requires forall i, j :: 0 <= i < j < |sorted| ==> sorted[i].createdAt >= sorted[j].createdAt
    ensures multiset(Take(sorted, n)) <= multiset(h)
    ensures forall i, j :: 0 <= i < j < |Take(sorted, n)| ==> Take(sorted, n)[i].createdAt >= Take(sorted, n)[j].createdAt
    ensures forall e :: e in multiset(h) - multiset(Take(sorted, n)) ==>
      forall i :: 0 <= i < |Take(sorted, n)| ==> e.createdAt <= Take(sorted, n)[i].createdAt
  {
    var r := Take(sorted, n);
    var rest := sorted[|r|..];
    SplitLeavesRest(h, sorted, r, rest);
    RestIsOlder(sorted, r, rest);
    PrefixKeepsOrder(sorted, r);
  }

  /** Nothing after a prefix of a newest-first sequence is newer than a record of the prefix. */
  lemma RestIsOlder(sorted: seq<HistoryEntry>, r: seq<HistoryEntry>, rest: seq<HistoryEntry>)
    requires forall i, j :: 0 <= i < j < |sorted| ==> sorted[i].createdAt >= sorted[j].createdAt
    requires sorted == r + rest
    ensures forall e :: e in multiset(rest) ==> forall i :: 0 <= i < |r| ==> e.createdAt <= r[i].createdAt
  {
    forall e | e in multiset(rest)
      ensures forall i :: 0 <= i < |r| ==> e.createdAt <= r[i].createdAt
    {
      assert e in rest;
      LeftOutIsOlder(sorted, r, e);
    }
  }

  /** A prefix of a newest-first sequence is newest first. */
  lemma PrefixKeepsOrder(sorted: seq<HistoryEntry>, r: seq<HistoryEntry>)
    requires forall i, j :: 0 <= i < j < |sorted| ==> sorted[i].createdAt >= sorted[j].createdAt
    requires r <= sorted
    ensures forall i, j :: 0 <= i < j < |r| ==> r[i].createdAt >= r[j].createdAt
  {
    assert forall i :: 0 <= i < |r| ==> r[i] == sorted[i];
  }

  /** Splitting an ordering of `h` into a prefix and the rest: what the prefix leaves of `h` is the rest. */
  lemma SplitLeavesRest(h: seq<HistoryEntry>, sorted: seq<HistoryEntry>, r: seq<HistoryEntry>, rest: seq<HistoryEntry>)
    requires multiset(sorted) == multiset(h) && sorted == r + rest
    ensures multiset(r) <= multiset(h)
    ensures multiset(h) - multiset(r) == multiset(rest)
  {
    assert multiset(sorted) == multiset(r) + multiset(rest);
  }

  /** A record after a prefix of a newest-first sequence is no newer than any record of the prefix. */
  lemma LeftOutIsOlder(sorted: seq<HistoryEntry>, r: seq<HistoryEntry>, e: HistoryEntry)
    requires forall i, j :: 0 <= i < j < |sorted| ==> sorted[i].createdAt >= sorted[j].createdAt
    requires r <= sorted && e in sorted[|r|..]
    ensures forall i :: 0 <= i < |r| ==> e.createdAt <= r[i].createdAt
  {
    var k :| |r| <= k < |sorted| && sorted[k] == e;
    assert forall i :: 0 <= i < |r| ==> r[i] == sorted[i];
  }

  // Movement series

  /** A record falls in the seven days before `now`. */
  predicate InWindow(e: HistoryEntry, now: int) {
    e.createdAt >= now - WindowMillis
  }

  /** The UTC day a timestamp falls on, counted from the epoch (floor division). */
  function DayOf(t: int): int {
    t / DayMillis
  }

  /** A record's group: its day and its type. */
  function GroupKey(e: HistoryEntry): (int, MovementType) {
    (DayOf(e.createdAt), e.kind)
  }

  function Quantity(e: HistoryEntry): int {
    e.quantity
  }

  /** The records of the last seven days. */
  function Window(h: seq<HistoryEntry>, now: int): (w: seq<HistoryEntry>)
    ensures forall e :: e in w <==> e in h && InWindow(e, now)
  {
    Filter(h, (e: HistoryEntry) => InWindow(e, now))
  }

  /** The group with key `k` over the records `w`: the sum of their quantities. */
  function Group(w: seq<HistoryEntry>, k: (int, MovementType)): MovementGroup {
    MovementGroup(k.0, k.1, SumOf(w, GroupKey, k, Quantity))
  }

  function KeyOf(g: MovementGroup): (int, MovementType) {
    (g.day, g.kind)
  }

  /**
   * The per-day, per-type movement totals of the last seven days: one group per (day, type) that some
   * record of the window has and no other, each holding the sum of that group's quantities, in
   * ascending order of day. When every record moves a positive quantity, no group is empty.
   */
  function MovementSeries(h: seq<HistoryEntry>, now: int): (r: seq<MovementGroup>)
    ensures forall i :: 0 <= i < |r| ==>
      && Count(Window(h, now), GroupKey, KeyOf(r[i])) > 0
      && r[i].total == SumOf(Window(h, now), GroupKey, KeyOf(r[i]), Quantity)
    ensures forall e :: e in h && InWindow(e, now) ==> exists i :: 0 <= i < |r| && KeyOf(r[i]) == GroupKey(e)
    ensures forall i, j :: 0 <= i < j < |r| ==> r[i].day <= r[j].day
    ensures forall i, j :: 0 <= i < j < |r| ==> KeyOf(r[i]) != KeyOf(r[j])
    ensures (forall e :: e in h ==> e.quantity > 0) ==> forall i :: 0 <= i < |r| ==> r[i].total > 0
  {
    var w := Window(h, now);
    var ks := Keys(w, GroupKey);
    var groups := seq(|ks|, i requires 0 <= i < |ks| => Group(w, ks[i]));
    var r := SortBy(groups, (g: MovementGroup) => g.day);
    SeriesFacts(h, now, w, ks, groups, r);
    r
  }

  /** The facts `MovementSeries` promises about a reordering `r` of the groups over the window's keys. */
  lemma SeriesFacts(h: seq<HistoryEntry>, now: int, w: seq<HistoryEntry>, ks: seq<(int, MovementType)>,
                    groups: seq<MovementGroup>, r: seq<MovementGroup>)
    requires w == Window(h, now) && ks == Keys(w, GroupKey)
    requires |groups| == |ks| && forall i :: 0 <= i < |ks| ==> groups[i] == Group(w, ks[i])
    requires multiset(r) == multiset(groups)
    ensures forall i :: 0 <= i < |r| ==>
      && Count(w, GroupKey, KeyOf(r[i])) > 0
      && r[i].total == SumOf(w, GroupKey, KeyOf(r[i]), Quantity)
    ensures forall e :: e in h && InWindow(e, now) ==> exists i :: 0 <= i < |r| && KeyOf(r[i]) == GroupKey(e)
    ensures forall i, j :: 0 <= i < j < |r| ==> KeyOf(r[i]) != KeyOf(r[j])
    ensures (forall e :: e in h ==> e.quantity > 0) ==> forall i :: 0 <= i < |r| ==> r[i].total > 0
  {
    GroupsAreWindowGroups(w, ks, groups, r);
    EveryRecordGrouped(h, now, w, ks, groups, r);
    GroupKeysDistinct(w, ks, groups, r);
    if forall e :: e in h ==> e.quantity > 0 {
      GroupsPositive(h, now, w, r);
    }
  }

  lemma GroupsAreWindowGroups(w: seq<HistoryEntry>, ks: seq<(int, MovementType)>,
                              groups: seq<MovementGroup>, r: seq<MovementGroup>)
    requires ks == Keys(w, GroupKey)
    requires |groups| == |ks| && forall i :: 0 <= i < |ks| ==> groups[i] == Group(w, ks[i])
    requires multiset(r) == multiset(groups)
    ensures forall i :: 0 <= i < |r| ==>
      && Count(w, GroupKey, KeyOf(r[i])) > 0
      && r[i].total == SumOf(w, GroupKey, KeyOf(r[i]), Quantity)
  {
    forall i | 0 <= i < |r|
      ensures Count(w, GroupKey, KeyOf(r[i])) > 0 && r[i].total == SumOf(w, GroupKey, KeyOf(r[i]), Quantity)
    {
      assert r[i] in multiset(groups);
      var j :| 0 <= j < |groups| && groups[j] == r[i];
      assert ks[j] in ks;
    }
  }

  lemma EveryRecordGrouped(h: seq<HistoryEntry>, now: int, w: seq<HistoryEntry>, ks: seq<(int, MovementType)>,
                           groups: seq<MovementGroup>, r: seq<MovementGroup>)
    requires w == Window(h, now) && ks == Keys(w, GroupKey)
    requires |groups| == |ks| && forall i :: 0 <= i < |ks| ==> groups[i] == Group(w, ks[i])
    requires multiset(r) == multiset(groups)
    ensures forall e :: e in h && InWindow(e, now) ==> exists i :: 0 <= i < |r| && KeyOf(r[i]) == GroupKey(e)
  {
    forall e | e in h && InWindow(e, now)
      ensures exists i :: 0 <= i < |r| && KeyOf(r[i]) == GroupKey(e)
    {
      assert e in w;
      var m :| 0 <= m < |w| && w[m] == e;
      assert GroupKey(w[m]) in ks;
      var j :| 0 <= j < |ks| && ks[j] == GroupKey(w[m]);
      assert groups[j] in multiset(r);
      var i :| 0 <= i < |r| && r[i] == groups[j];
      assert KeyOf(r[i]) == GroupKey(e);
    }
  }

  lemma GroupKeysDistinct(w: seq<HistoryEntry>, ks: seq<(int, MovementType)>,
                          groups: seq<MovementGroup>, r: seq<MovementGroup>)
    requires ks == Keys(w, GroupKey)
    requires |groups| == |ks| && forall i :: 0 <= i < |ks| ==> groups[i] == Group(w, ks[i])
    requires multiset(r) == multiset(groups)
    ensures forall i, j :: 0 <= i < j < |r| ==> KeyOf(r[i]) != KeyOf(r[j])
  {
    assert Distinct(groups) by {
      forall a, b | 0 <= a < b < |groups|
        ensures groups[a] != groups[b]
      {
        assert KeyOf(groups[a]) == ks[a] && KeyOf(groups[b]) == ks[b];
      }
    }
    PermutationKeepsDistinct(groups, r);
    forall i, j | 0 <= i < j < |r|
      ensures KeyOf(r[i]) != KeyOf(r[j])
    {
      assert r[i] in multiset(groups) && r[j] in multiset(groups);
      var a :| 0 <= a < |groups| && groups[a] == r[i];
      var b :| 0 <= b < |groups| && groups[b] == r[j];
      assert r[i] != r[j];
    }
  }

  lemma GroupsPositive(h: seq<HistoryEntry>, now: int, w: seq<HistoryEntry>, r: seq<MovementGroup>)
    requires w == Window(h, now)
    requires forall e :: e in h ==> e.quantity > 0
    requires forall i :: 0 <= i < |r| ==>
      && Count(w, GroupKey, KeyOf(r[i])) > 0
      && r[i].total == SumOf(w, GroupKey, KeyOf(r[i]), Quantity)
    ensures forall i :: 0 <= i < |r| ==> r[i].total > 0
  {
    forall m | 0 <= m < |w|
      ensures Quantity(w[m]) > 0
    {
      assert w[m] in w;
    }
    forall i | 0 <= i < |r|
      ensures r[i].total > 0
    {
      SumOfPositive(w, GroupKey, KeyOf(r[i]), Quantity);
    }
  }

  // Category distribution

  /** The share of category `id`; a category missing from the table is reported as uncategorised. */
  function ShareOf(categories: map<CategoryId, Category>, id: CategoryId, count: nat): CategoryShare {
    if id in categories then CategoryShare(id, categories[id].name, categories[id].color, count)
    else CategoryShare(id, Uncategorized, FallbackColor, count)
  }

  /** One share per key of `ks`, in the order of `ks`. */
  function Shares(ks: seq<CategoryId>, products: seq<Product>, categories: map<CategoryId, Category>)
    : (r: seq<CategoryShare>)
    ensures |r| == |ks|
    ensures forall i :: 0 <= i < |ks| ==> r[i] == ShareOf(categories, ks[i], Count(products, CategoryOf, ks[i]))
  {
    if ks == [] then []
    else
      Shares(ks[..|ks| - 1], products, categories)
        + [ShareOf(categories, ks[|ks| - 1], Count(products, CategoryOf, ks[|ks| - 1]))]
  }

  /** The sum of the counts of `shares`. */
  function TotalCount(shares: seq<CategoryShare>): nat {
    if shares == [] then 0 else TotalCount(shares[..|shares| - 1]) + shares[|shares| - 1].count
  }

  /** The counts of the shares over `ks` add up to the group sizes over `ks`. */
  lemma {:induction false} SharesTotal(ks: seq<CategoryId>, products: seq<Product>, categories: map<CategoryId, Category>)
    ensures TotalCount(Shares(ks, products, categories)) == SumCounts(ks, products, CategoryOf)
  {
    if ks != [] {
      var init := ks[..|ks| - 1];
      SharesTotal(init, products, categories);
      var r := Shares(ks, products, categories);
      assert r[..|r| - 1] == Shares(init, products, categories);
    }
  }

  /**
   * The distribution of products over categories: one share per category some product refers to and
   * no other, each counting the products that refer to it and named after its category, or
   * "Uncategorized" when the category is not in the table; the counts add up to the number of products.
   */
  function CategoryDistribution(products: seq<Product>, categories: map<CategoryId, Category>)
    : (r: seq<CategoryShare>)
    ensures forall i, j :: 0 <= i < j < |r| ==> r[i].category != r[j].category
    ensures forall p :: p in products ==> exists i :: 0 <= i < |r| && r[i].category == p.category
    ensures forall i :: 0 <= i < |r| ==> r[i].count == Count(products, CategoryOf, r[i].category) > 0
    ensures forall i :: 0 <= i < |r| ==>
      && (r[i].category in categories ==>
            r[i].name == categories[r[i].category].name && r[i].color == categories[r[i].category].color)
      && (r[i].category !in categories ==> r[i].name == Uncategorized && r[i].color == FallbackColor)
    ensures TotalCount(r) == |products|
  {
    var ks := Keys(products, CategoryOf);
    var r := Shares(ks, products, categories);
    SharesTotal(ks, products, categories);
    GroupsPartition(products, CategoryOf);
    EveryProductShared(products, categories, ks, r);
    SharesOfKeys(products, categories, ks, r);
    r
  }

  lemma SharesOfKeys(products: seq<Product>, categories: map<CategoryId, Category>, ks: seq<CategoryId>,
                     r: seq<CategoryShare>)
    requires ks == Keys(products, CategoryOf) && r == Shares(ks, products, categories)
    ensures forall i, j :: 0 <= i < j < |r| ==> r[i].category != r[j].category
    ensures forall i :: 0 <= i < |r| ==> r[i].count == Count(products, CategoryOf, r[i].category) > 0
    ensures forall i :: 0 <= i < |r| ==>
      && (r[i].category in categories ==>
            r[i].name == categories[r[i].category].name && r[i].color == categories[r[i].category].color)
      && (r[i].category !in categories ==> r[i].name == Uncategorized && r[i].color == FallbackColor)
  {
    forall i | 0 <= i < |r|
      ensures r[i].category == ks[i] && r[i].count == Count(products, CategoryOf, ks[i]) > 0
    {
      assert ks[i] in ks;
    }
  }

  lemma EveryProductShared(products: seq<Product>, categories: map<CategoryId, Category>, ks: seq<CategoryId>,
                           r: seq<CategoryShare>)
    requires ks == Keys(products, CategoryOf) && r == Shares(ks, products, categories)
    ensures forall p :: p in products ==> exists i :: 0 <= i < |r| && r[i].category == p.category
  {
    forall p | p in products
      ensures exists i :: 0 <= i < |r| && r[i].category == p.category
    {
      var m :| 0 <= m < |products| && products[m] == p;
      assert CategoryOf(products[m]) in ks;
      var i :| 0 <= i < |ks| && ks[i] == CategoryOf(products[m]);
      assert r[i].category == p.category;
    }
  }

  // The overview

  /**
   * The dashboard overview over the store at instant `now`: the sizes of the two tables, the number of
   * low-stock products (the same products the alert list shows), the valuation, and the three series.
   */
  function GetStats(db: Ledger, now: int): (r: Overview)
    reads db
    requires Indexes(db.productOrder, db.products)
    ensures r.stats.totalProducts == |db.products| && r.stats.totalCategories == |db.categories|
    ensures r.stats.lowStockProducts == |GetAlerts(db.ProductRows())|
    ensures r.stats.totalStockValue == StockValue(db.ProductRows())
    ensures db.products == map[] ==> r.stats.totalStockValue == 0
    ensures (forall k :: k in db.products ==> ValidProduct(db.products[k])) ==> r.stats.totalStockValue >= 0
    ensures r.recentActivity == RecentActivity(db.history)
    ensures r.stockMovements == MovementSeries(db.history, now)
    ensures r.productsByCategory == CategoryDistribution(db.ProductRows(), db.categories)
    ensures TotalCount(r.productsByCategory) == r.stats.totalProducts
  {
    var rows := db.ProductRows();
    var stats := Stats(|db.products|, |db.categories|, |Filter(rows, IsLowStock)|, StockValue(rows));
    AlertCount(rows);
    ValidRows(db);
    Overview(stats, RecentActivity(db.history), MovementSeries(db.history, now),
             CategoryDistribution(rows, db.categories))
  }

  /** When every stored product is valid, so is every row the product query lists. */
  lemma ValidRows(db: Ledger)
    requires Indexes(db.productOrder, db.products)
    ensures (forall k :: k in db.products ==> ValidProduct(db.products[k])) ==>
      forall i :: 0 <= i < |db.ProductRows()| ==> db.ProductRows()[i].price >= 0 && db.ProductRows()[i].quantity >= 0
  {
    var rows := db.ProductRows();
    if forall k :: k in db.products ==> ValidProduct(db.products[k]) {
      forall i | 0 <= i < |rows|
        ensures ValidProduct(rows[i])
      {
        assert db.productOrder[i] in db.products;
      }
    }
  }
}

=== FILE: dashboard_page.dfy ===
/**
 * The dashboard page's chart data: the movement series the overview returns, regrouped into one
 * point per date carrying the totals of each movement type.
 */
module DashboardPage {
  import opened Outcomes
  import opened Collections
  import opened Grouping
  import opened StockHistoryModel

  /** One group of the movement series as the page receives it: its "YYYY-MM-DD" date, its type and its total. */
  datatype SeriesRow = SeriesRow(date: string, kind: MovementType, total: int)

  /**
   * One point of the chart: its date label and its totals. IN and OUT are present on every point; ADJUSTMENT is present only once a
   * group of that type has been seen for the date.
   */
  datatype ChartPoint = ChartPoint(date: string, inTotal: int, outTotal: int, adjustment: Option<int>)

  function DateOf(row: SeriesRow): string {
    row.date
  }

  /** A point's label: the date without its first five characters (`slice(5)`, so "2024-03-07" gives "03-07"). */
  function Label(date: string): (l: string)
    ensures |date| >= 5 ==> date == date[..5] + l
    ensures |date| < 5 ==> l == ""
  {
    if |date| < 5 then "" else date[5..]
  }

  /** The point a date starts with. */
  function FreshPoint(date: string): ChartPoint {
    ChartPoint(Label(date), 0, 0, None)
  }

  /** Storing a group's total under its type (`map[date][type] = total`): assignment, not addition. */
  function Assign(p: ChartPoint, row: SeriesRow): ChartPoint {
    match row.kind
    case IN => p.(inTotal := row.total)
    case OUT => p.(outTotal := row.total)
    case ADJUSTMENT => p.(adjustment := Some(row.total))
  }

  predicate IsGroup(row: SeriesRow, date: string, kind: MovementType) {
    row.date == date && row.kind == kind
  }

  /** The total of the last row for (`date`, `kind`), if there is one. */
  function LastTotal(rows: seq<SeriesRow>, date: string, kind: MovementType): Option<int> {
    if rows == [] then None
    else if IsGroup(rows[|rows| - 1], date, kind) then Some(rows[|rows| - 1].total)
    else LastTotal(rows[..|rows| - 1], date, kind)
  }

  /** `LastTotal` is absent exactly when no row is a group of (`date`, `kind`), and otherwise the last such row's total. */
  lemma {:induction false} LastTotalIsLastGroup(rows: seq<SeriesRow>, date: string, kind: MovementType)
    ensures LastTotal(rows, date, kind).None? <==> forall i :: 0 <= i < |rows| ==> !IsGroup(rows[i], date, kind)
    ensures LastTotal(rows, date, kind).Some? ==> exists i ::
      && 0 <= i < |rows| && IsGroup(rows[i], date, kind) && rows[i].total == LastTotal(rows, date, kind).value
      && forall j :: i < j < |rows| ==> !IsGroup(rows[j], date, kind)
  {
    if rows != [] {
      var prefix := rows[..|rows| - 1];
      assert forall i :: 0 <= i < |prefix| ==> prefix[i] == rows[i];
      if !IsGroup(rows[|rows| - 1], date, kind) {
        LastTotalIsLastGroup(prefix, date, kind);
      }
    }
  }

  /** The point the chart shows for `date`: the last total of each type, IN and OUT defaulting to zero. */
  function PointOf(rows: seq<SeriesRow>, date: string): ChartPoint {
    ChartPoint(Label(date), LastTotal(rows, date, IN).GetOr(0), LastTotal(rows, date, OUT).GetOr(0),
               LastTotal(rows, date, ADJUSTMENT))
  }

  /** The chart: one point per distinct date, in the order in which the dates first occur. */
  function Chart(rows: seq<SeriesRow>): seq<ChartPoint> {
    var dates := Keys(rows, DateOf);
    seq(|dates|, i requires 0 <= i < |dates| => PointOf(rows, dates[i]))
  }

  /**
   * Builds the chart points the way the page does: a keyed object filled in one group at a time and
   * read back in insertion order. Without a series there are no points.
   */
  method ChartData(movements: Option<seq<SeriesRow>>) returns (points: seq<ChartPoint>)
    ensures movements.None? || movements == Some([]) ==> points == []
    ensures movements.Some? ==> points == Chart(movements.value)
  {
    if movements.None? {
      return [];
    }
    var rows := movements.value;
    var byDate: map<string, ChartPoint> := map[];
    var order: seq<string> := [];
    var i := 0;
    while i < |rows|
      invariant 0 <= i <= |rows|
      invariant ChartSoFar(rows[..i], byDate, order)
    {
      var row := rows[i];
      ghost var before, keys := byDate, order;
      if row.date !in byDate {
        byDate := byDate[row.date := FreshPoint(row.date)];
        order := order + [row.date];
      }
      byDate := byDate[row.date := Assign(byDate[row.date], row)];
      StepKeepsChart(rows, i, before, keys, byDate, order);
      i := i + 1;
    }
    assert rows[..i] == rows;
    points := ReadBack(rows, byDate, order);
  }

  /** The keyed object and its insertion order after the page has processed the rows `seen`. */
  ghost predicate ChartSoFar(seen: seq<SeriesRow>, byDate: map<string, ChartPoint>, order: seq<string>) {
    && order == Keys(seen, DateOf)
    && (forall d :: d in byDate <==> d in order)
    && forall d :: d in byDate ==> byDate[d] == PointOf(seen, d)
  }

  /** One step of the loop in `ChartData` keeps the keyed object equal to the chart of the rows seen so far. */
  lemma StepKeepsChart(rows: seq<SeriesRow>, i: int, byDate: map<string, ChartPoint>, order: seq<string>,
                       byDate': map<string, ChartPoint>, order': seq<string>)
    requires 0 <= i < |rows| && ChartSoFar(rows[..i], byDate, order)
    requires order' == if rows[i].date in byDate then order else order + [rows[i].date]
    requires byDate' == byDate[rows[i].date :=
      Assign(if rows[i].date in byDate then byDate[rows[i].date] else FreshPoint(rows[i].date), rows[i])]
    ensures ChartSoFar(rows[..i + 1], byDate', order')
  {
    var seen, row := rows[..i], rows[i];
    assert rows[..i + 1] == seen + [row];
    assert (seen + [row])[..|seen|] == seen;
    if row.date !in byDate {
      PointOfUnseen(seen, row.date);
    }
    forall d | d in byDate'
      ensures byDate'[d] == PointOf(seen + [row], d)
    {
      PointOfSnoc(seen, row, d);
    }
  }

  /** Reading the keyed object back in insertion order (`Object.values`) gives the chart. */
  function ReadBack(rows: seq<SeriesRow>, byDate: map<string, ChartPoint>, order: seq<string>): (points: seq<ChartPoint>)
    requires ChartSoFar(rows, byDate, order)
    ensures points == Chart(rows)
  {
    var points := seq(|order|, j requires 0 <= j < |order| => byDate[order[j]]);
    assert forall j :: 0 <= j < |order| ==> order[j] in order;
    points
  }

  /** A later group for the same date and type replaces the earlier total rather than adding to it. */
  lemma LaterGroupOverwrites(rows: seq<SeriesRow>, row: SeriesRow, date: string, kind: MovementType)
    ensures LastTotal(rows + [row], date, kind) ==
      if IsGroup(row, date, kind) then Some(row.total) else LastTotal(rows, date, kind)
  {
    assert (rows + [row])[..|rows|] == rows;
  }

  lemma PointOfSnoc(rows: seq<SeriesRow>, row: SeriesRow, d: string)
    ensures PointOf(rows + [row], d) == if d == row.date then Assign(PointOf(rows, d), row) else PointOf(rows, d)
  {
    LaterGroupOverwrites(rows, row, d, IN);
    LaterGroupOverwrites(rows, row, d, OUT);
    LaterGroupOverwrites(rows, row, d, ADJUSTMENT);
  }

  /** A date no row has yet starts from the fresh point. */
  lemma PointOfUnseen(rows: seq<SeriesRow>, d: string)
    requires d !in Keys(rows, DateOf)
    ensures PointOf(rows, d) == FreshPoint(d)
  {
    assert forall i :: 0 <= i < |rows| ==> rows[i].date != d;
    LastTotalIsLastGroup(rows, d, IN);
    LastTotalIsLastGroup(rows, d, OUT);
    LastTotalIsLastGroup(rows, d, ADJUSTMENT);
  }

  /**
   * The chart has exactly one point per distinct date of the series, labelled after that date, and the
   * dates appear in order of first occurrence.
   */
  lemma OnePointPerDate(rows: seq<SeriesRow>)
    ensures |Chart(rows)| == |set i | 0 <= i < |rows| :: rows[i].date|
    ensures forall i :: 0 <= i < |Chart(rows)| ==> Chart(rows)[i].date == Label(Keys(rows, DateOf)[i])
    ensures forall d :: d in Keys(rows, DateOf) <==> exists i :: 0 <= i < |rows| && rows[i].date == d
  {
    var dates := Keys(rows, DateOf);
    forall d | d in dates
      ensures exists i :: 0 <= i < |rows| && rows[i].date == d
    {
      var m := CountWitness(rows, DateOf, d);
    }
    assert (set d | d in dates) == (set i | 0 <= i < |rows| :: rows[i].date);
    DistinctSize(dates);
  }

  /** The point at `i` is for a date that occurs before any occurrence of the date of a later point. */
  lemma PointsInFirstOccurrenceOrder(rows: seq<SeriesRow>, i: int, j: int)
    requires 0 <= i < j < |Chart(rows)|
    ensures exists m ::
      && 0 <= m < |rows| && rows[m].date == Keys(rows, DateOf)[i]
      && forall n :: 0 <= n <= m ==> rows[n].date != Keys(rows, DateOf)[j]
  {
    KeysInFirstOccurrenceOrder(rows, DateOf, i, j);
  }

  /**
   * What a point shows for one date when a type has no group: IN and OUT are zero, and ADJUSTMENT is
   * absent exactly when the date has no ADJUSTMENT group.
   */
  lemma PointTotals(rows: seq<SeriesRow>, d: string)
    ensures (forall i :: 0 <= i < |rows| ==> !IsGroup(rows[i], d, IN)) ==> PointOf(rows, d).inTotal == 0
    ensures (forall i :: 0 <= i < |rows| ==> !IsGroup(rows[i], d, OUT)) ==> PointOf(rows, d).outTotal == 0
    ensures PointOf(rows, d).adjustment.None? <==> forall i :: 0 <= i < |rows| ==> !IsGroup(rows[i], d, ADJUSTMENT)
  {
    LastTotalIsLastGroup(rows, d, IN);
    LastTotalIsLastGroup(rows, d, OUT);
    LastTotalIsLastGroup(rows, d, ADJUSTMENT);
  }

  /** The group of a type that comes last for a date is the one whose total the date's point shows. */
  lemma {:induction false} LastGroupWins(rows: seq<SeriesRow>, d: string, k: MovementType, i: int)
    requires 0 <= i < |rows| && IsGroup(rows[i], d, k)
    requires forall j :: i < j < |rows| ==> !IsGroup(rows[j], d, k)
    ensures LastTotal(rows, d, k) == Some(rows[i].total)
    ensures k == IN ==> PointOf(rows, d).inTotal == rows[i].total
    ensures k == OUT ==> PointOf(rows, d).outTotal == rows[i].total
    ensures k == ADJUSTMENT ==> PointOf(rows, d).adjustment == Some(rows[i].total)
  {
    if i < |rows| - 1 {
      var prefix := rows[..|rows| - 1];
      assert forall j :: 0 <= j < |prefix| ==> prefix[j] == rows[j];
      LastGroupWins(prefix, d, k, i);
    }
  }
}

=== FILE: grouping.dfy ===
/** Grouping a sequence by a key: the model of a `$group` stage and of building a keyed object. */
module Grouping {
  import opened Collections

  /** How many elements of `s` have key `k`. */
  function Count<T, K(==)>(s: seq<T>, key: T -> K, k: K): nat
  {
    if s == [] then 0
    else Count(s[..|s| - 1], key, k) + (if key(s[|s| - 1]) == k then 1 else 0)
  }

  /** The sum of `w` over the elements of `s` that have key `k`. */
  function SumOf<T, K(==)>(s: seq<T>, key: T -> K, k: K, w: T -> int): int
  {
    if s == [] then 0
    else SumOf(s[..|s| - 1], key, k, w) + (if key(s[|s| - 1]) == k then w(s[|s| - 1]) else 0)
  }

  /** The distinct keys of `s`, each listed once, in the order in which it first occurs. */
  function Keys<T, K(==, !new)>(s: seq<T>, key: T -> K): (r: seq<K>)
    ensures Distinct(r)
    ensures forall i :: 0 <= i < |s| ==> key(s[i]) in r
    ensures forall k :: k in r ==> Count(s, key, k) > 0
  {
    if s == [] then []
    else
      var prefix := s[..|s| - 1];
      var ks := Keys(prefix, key);
      var last := key(s[|s| - 1]);
      assert forall i :: 0 <= i < |s| - 1 ==> s[i] == prefix[i];
      if last in ks then ks else ks + [last]
  }

  /** The sum of the group sizes over the keys `ks`. */
  function SumCounts<T, K(==)>(ks: seq<K>, s: seq<T>, key: T -> K): nat
  {
    if ks == [] then 0
    else SumCounts(ks[..|ks| - 1], s, key) + Count(s, key, ks[|ks| - 1])
  }

  /** A key that no element carries has an empty group. */
  lemma {:induction false} CountAbsent<T, K>(s: seq<T>, key: T -> K, k: K)
    requires forall i :: 0 <= i < |s| ==> key(s[i]) != k
    ensures Count(s, key, k) == 0
  {
    if s != [] {
      CountAbsent(s[..|s| - 1], key, k);
    }
  }

  /** A key that some element carries has a non-empty group. */
  lemma {:induction false} CountPresent<T, K>(s: seq<T>, key: T -> K, i: int)
    requires 0 <= i < |s|
    ensures Count(s, key, key(s[i])) > 0
  {
    if i < |s| - 1 {
      CountPresent(s[..|s| - 1], key, i);
    }
  }

  /** A non-empty group has a member. */
  lemma {:induction false} CountWitness<T, K>(s: seq<T>, key: T -> K, k: K) returns (m: nat)
    requires Count(s, key, k) > 0
    ensures m < |s| && key(s[m]) == k
  {
    if key(s[|s| - 1]) == k {
      m := |s| - 1;
    } else {
      m := CountWitness(s[..|s| - 1], key, k);
    }
  }

  /**
   * `Keys` lists the keys in order of first occurrence: the key listed at `i` occurs in `s` before the
   * first occurrence of the key listed at any later `j`.
   */
  lemma {:induction false} KeysInFirstOccurrenceOrder<T, K(!new)>(s: seq<T>, key: T -> K, i: int, j: int)
    requires 0 <= i < j < |Keys(s, key)|
    ensures exists m ::
      && 0 <= m < |s| && key(s[m]) == Keys(s, key)[i]
      && forall n :: 0 <= n <= m ==> key(s[n]) != Keys(s, key)[j]
  {
    var ks := Keys(s, key);
    var prefix := s[..|s| - 1];
    var pks := Keys(prefix, key);
    assert forall n :: 0 <= n < |prefix| ==> prefix[n] == s[n];
    if j < |pks| {
      KeysInFirstOccurrenceOrder(prefix, key, i, j);
      var m :| 0 <= m < |prefix| && key(prefix[m]) == pks[i] &&
        forall n :: 0 <= n <= m ==> key(prefix[n]) != pks[j];
      assert key(s[m]) == ks[i];
    } else {
      assert ks == pks + [key(s[|s| - 1])] && ks[i] == pks[i];
      assert pks[i] in pks;
      var m := CountWitness(prefix, key, pks[i]);
      forall n | 0 <= n <= m
        ensures key(s[n]) != ks[j]
      {
        assert key(prefix[n]) in pks;
      }
    }
  }

  /** Appending one element grows exactly one group among distinct keys, if its key is listed. */
  lemma {:induction false} SumCountsSnoc<T, K>(ks: seq<K>, s: seq<T>, key: T -> K, x: T)
    requires Distinct(ks)
    ensures SumCounts(ks, s + [x], key) == SumCounts(ks, s, key) + (if key(x) in ks then 1 else 0)
  {
    var t := s + [x];
    assert t[..|t| - 1] == s;
    if ks != [] {
      var init := ks[..|ks| - 1];
      assert forall k :: k in init ==> k != ks[|ks| - 1];
      assert key(x) in ks <==> key(x) in init || key(x) == ks[|ks| - 1];
      SumCountsSnoc(init, s, key, x);
    }
  }

  /** The groups over the distinct keys of `s` together hold every element exactly once. */
  lemma {:induction false} GroupsPartition<T, K(!new)>(s: seq<T>, key: T -> K)
    ensures SumCounts(Keys(s, key), s, key) == |s|
  {
    if s != [] {
      var prefix := s[..|s| - 1];
      var x := s[|s| - 1];
      assert s == prefix + [x];
      var ks := Keys(prefix, key);
      GroupsPartition(prefix, key);
      SumCountsSnoc(ks, prefix, key, x);
      if key(x) !in ks {
        CountAbsent(prefix, key, key(x));
        assert (ks + [key(x)])[..|ks|] == ks;
      }
    }
  }

  /** A group whose elements all weigh more than zero and that is not empty has a positive sum. */
  lemma {:induction false} SumOfPositive<T, K>(s: seq<T>, key: T -> K, k: K, w: T -> int)
    requires forall i :: 0 <= i < |s| ==> w(s[i]) > 0
    requires Count(s, key, k) > 0
    ensures SumOf(s, key, k, w) > 0
  {
    var prefix := s[..|s| - 1];
    assert forall i :: 0 <= i < |prefix| ==> prefix[i] == s[i];
    if Count(prefix, key, k) > 0 {
      SumOfPositive(prefix, key, k, w);
      assert SumOf(prefix, key, k, w) > 0;
    } else {
      assert key(s[|s| - 1]) == k;
      NonNegativeSum(prefix, key, k, w);
    }
  }

  lemma {:induction false} NonNegativeSum<T, K>(s: seq<T>, key: T -> K, k: K, w: T -> int)
    requires forall i :: 0 <= i < |s| ==> w(s[i]) > 0
    ensures SumOf(s, key, k, w) >= 0
  {
    if s != [] {
      var prefix := s[..|s| - 1];
      assert forall i :: 0 <= i < |prefix| ==> prefix[i] == s[i];
      NonNegativeSum(prefix, key, k, w);
    }
  }
}

=== FILE: ledger.dfy ===
/**
 * The store the controllers share: the product and category collections, each with its natural
 * (insertion) order, and the append-only stock history.
 */
module LedgerState {
  import opened Outcomes
  import opened Collections
  import opened ProductModel
  import opened CategoryModel
  import opened StockHistoryModel

  /** No two products share a SKU (the unique index on `sku`). */
  ghost predicate UniqueSkus(ps: map<ProductId, Product>) {
    forall a, b {:trigger ps[a].sku, ps[b].sku} :: a in ps && b in ps && a != b ==> ps[a].sku != ps[b].sku
  }

  /** No two categories share a name (the unique index on `name`). */
  ghost predicate UniqueNames(cs: map<CategoryId, Category>) {
    forall a, b {:trigger cs[a].name, cs[b].name} :: a in cs && b in cs && a != b ==> cs[a].name != cs[b].name
  }

  /** Some product other than `self` already holds `sku`. */
  predicate SkuTaken(ps: map<ProductId, Product>, sku: string, self: Option<ProductId>) {
    exists k :: k in ps && Some(k) != self && ps[k].sku == sku
  }

  /** Some category other than `self` already holds `name`. */
  predicate NameTaken(cs: map<CategoryId, Category>, name: string, self: Option<CategoryId>) {
    exists k :: k in cs && Some(k) != self && cs[k].name == name
  }

  /** Some product refers to category `id` (`Product.findOne({ category: id })`). */
  predicate CategoryInUse(ps: map<ProductId, Product>, id: CategoryId) {
    exists k :: k in ps && ps[k].category == id
  }

  /** The contents of the store at one instant. */
  datatype Snapshot = Snapshot(
    products: map<ProductId, Product>,
    productOrder: seq<ProductId>,
    categories: map<CategoryId, Category>,
    categoryOrder: seq<CategoryId>,
    history: seq<HistoryEntry>,
    nextId: nat,
    initial: map<ProductId, int>)

  /**
   * The store's invariant: both collections are indexed by their natural order and hold valid documents
   * with unique keys; every history record is consistent and refers to an existing product (no orphans);
   * and each product's records form one chain from the quantity it was created with to its current one.
   */
  ghost predicate Coherent(s: Snapshot) {
    && Indexes(s.productOrder, s.products)
    && Indexes(s.categoryOrder, s.categories)
    && ProductsValid(s.products, s.nextId)
    && CategoriesValid(s.categories, s.nextId)
    && UniqueSkus(s.products)
    && UniqueNames(s.categories)
    && NoOrphans(s.history, s.products)
    && Reconciled(s.history, s.products, s.initial)
  }

  ghost predicate ProductsValid(ps: map<ProductId, Product>, nextId: nat) {
    forall k :: k in ps ==> ps[k].id == k && k < nextId && ValidProduct(ps[k])
  }

  ghost predicate CategoriesValid(cs: map<CategoryId, Category>, nextId: nat) {
    forall k :: k in cs ==> cs[k].id == k && k < nextId && ValidCategory(cs[k])
  }

  /** Every record is consistent and refers to a product that exists. */
  ghost predicate NoOrphans(h: seq<HistoryEntry>, ps: map<ProductId, Product>) {
    forall e {:trigger e in h} :: e in h ==> Consistent(e) && e.product in ps
  }

  /** Each product's records chain from the quantity it was created with to its current quantity. */
  ghost predicate Reconciled(h: seq<HistoryEntry>, ps: map<ProductId, Product>, initial: map<ProductId, int>) {
    && initial.Keys == ps.Keys
    && forall k {:trigger EntriesOf(h, k)} :: k in ps ==> Chained(EntriesOf(h, k), initial[k], ps[k].quantity)
  }

  class Ledger {
    var products: map<ProductId, Product>
    var productOrder: seq<ProductId>
    var categories: map<CategoryId, Category>
    var categoryOrder: seq<CategoryId>
    var history: seq<HistoryEntry>
    /** The next identifier the store hands out. */
    var nextId: nat
    /** The quantity each product was created with. */
    ghost var initial: map<ProductId, int>

    ghost function State(): Snapshot
      reads this
    {
      Snapshot(products, productOrder, categories, categoryOrder, history, nextId, initial)
    }

    ghost predicate Valid()
      reads this
    {
      Coherent(State())
    }

    constructor ()
      ensures Valid()
      ensures products == map[] && categories == map[] && history == []
    {
      products := map[];
      productOrder := [];
      categories := map[];
      categoryOrder := [];
      history := [];
      nextId := 0;
      initial := map[];
    }

    /** `Product.create`: stores `p` under the next identifier and writes no history. */
    method AddProduct(p: Product)
      requires Valid() && p.id == nextId && ValidProduct(p) && !SkuTaken(products, p.sku, None)
      modifies this
      ensures Valid()
      ensures products == old(products)[p.id := p] && productOrder == old(productOrder) + [p.id]
      ensures nextId == old(nextId) + 1 && initial == old(initial)[p.id := p.quantity]
      ensures history == old(history) && categories == old(categories) && categoryOrder == old(categoryOrder)
    {
      ghost var before := State();
      products := products[p.id := p];
      productOrder := productOrder + [p.id];
      nextId := nextId + 1;
      initial := initial[p.id := p.quantity];
      AddKeepsCoherent(before, State(), p);
    }

    /**
     * Writes `u` over the stored product with its id, then appends `extra` to the history: either nothing
     * (the quantity is unchanged) or the one record of the quantity's transition.
     */
    method SaveProduct(u: Product, extra: seq<HistoryEntry>)
      requires Valid() && u.id in products && ValidProduct(u) && !SkuTaken(products, u.sku, Some(u.id))
      requires extra == [] ==> u.quantity == products[u.id].quantity
      requires extra != [] ==>
        && |extra| == 1 && Consistent(extra[0]) && extra[0].product == u.id
        && extra[0].previousQuantity == products[u.id].quantity && extra[0].newQuantity == u.quantity
      modifies this
      ensures Valid()
      ensures products == old(products)[u.id := u] && history == old(history) + extra
      ensures productOrder == old(productOrder) && nextId == old(nextId) && initial == old(initial)
      ensures categories == old(categories) && categoryOrder == old(categoryOrder)
    {
      ghost var before := State();
      products := products[u.id := u];
      history := history + extra;
      SaveKeepsCoherent(before, State(), u.id, u, extra);
    }

    /** `findByIdAndDelete` followed by `StockHistory.deleteMany({ product: id })`: the delete cascade. */
    method RemoveProduct(id: ProductId)
      requires Valid()
      modifies this
      ensures Valid()
      ensures products == old(products) - {id} && productOrder == Without(old(productOrder), id)
      ensures history == OtherThan(old(history), id) && initial == old(initial) - {id}
      ensures nextId == old(nextId) && categories == old(categories) && categoryOrder == old(categoryOrder)
    {
      ghost var before := State();
      products := products - {id};
      productOrder := Without(productOrder, id);
      history := OtherThan(history, id);
      initial := initial - {id};
      RemoveKeepsCoherent(before, State(), id);
    }

    /** `Category.create`: stores `c` under the next identifier. */
    method AddCategory(c: Category)
      requires Valid() && c.id == nextId && ValidCategory(c) && !NameTaken(categories, c.name, None)
      modifies this
      ensures Valid()
      ensures categories == old(categories)[c.id := c] && categoryOrder == old(categoryOrder) + [c.id]
      ensures nextId == old(nextId) + 1
      ensures products == old(products) && productOrder == old(productOrder)
      ensures history == old(history) && initial == old(initial)
    {
      ghost var before := State();
      categories := categories[c.id := c];
      categoryOrder := categoryOrder + [c.id];
      nextId := nextId + 1;
      AddCategoryKeepsCoherent(before, State(), c);
    }

    /** Writes `c` over the stored category with its id. */
    method SaveCategory(c: Category)
      requires Valid() && c.id in categories && ValidCategory(c) && !NameTaken(categories, c.name, Some(c.id))
      modifies this
      ensures Valid()
      ensures categories == old(categories)[c.id := c]
      ensures categoryOrder == old(categoryOrder) && nextId == old(nextId)
      ensures products == old(products) && productOrder == old(productOrder)
      ensures history == old(history) && initial == old(initial)
    {
      ghost var before := State();
      categories := categories[c.id := c];
      SaveCategoryKeepsCoherent(before, State(), c.id, c);
    }

    /** `Category.findByIdAndDelete`. */
    method RemoveCategory(id: CategoryId)
      requires Valid()
      modifies this
      ensures Valid()
      ensures categories == old(categories) - {id} && categoryOrder == Without(old(categoryOrder), id)
      ensures nextId == old(nextId)
      ensures products == old(products) && productOrder == old(productOrder)
      ensures history == old(history) && initial == old(initial)
    {
      ghost var before := State();
      categories := categories - {id};
      categoryOrder := Without(categoryOrder, id);
      RemoveCategoryKeepsCoherent(before, State(), id);
    }

    /** The products in natural order (`Product.find()`). */
    function ProductRows(): (r: seq<Product>)
      reads this
      requires Indexes(productOrder, products)
      ensures |r| == |productOrder| == |products|
      ensures forall i :: 0 <= i < |r| ==> productOrder[i] in products && r[i] == products[productOrder[i]]
    {
      IndexedSize(productOrder, products);
      Rows(products, productOrder)
    }

    /** The categories in natural order (`Category.find()`). */
    function CategoryRows(): (r: seq<Category>)
      reads this
      requires Indexes(categoryOrder, categories)
      ensures |r| == |categoryOrder| == |categories|
      ensures forall i :: 0 <= i < |r| ==> categoryOrder[i] in categories && r[i] == categories[categoryOrder[i]]
    {
      IndexedSize(categoryOrder, categories);
      Rows(categories, categoryOrder)
    }
  }

  /**
   * Reconciliation: every product's quantity is the quantity it was created with plus
   * Σ(newQuantity - previousQuantity) over its history records, and it is never negative.
   */
  lemma Reconciliation(s: Snapshot)
    requires Coherent(s)
    ensures forall k :: k in s.products ==>
      s.products[k].quantity == s.initial[k] + NetChange(s.history, k) && s.products[k].quantity >= 0
  {
    forall k | k in s.products
      ensures s.products[k].quantity == s.initial[k] + NetChange(s.history, k)
    {
      ChainTelescopes(EntriesOf(s.history, k), s.initial[k], s.products[k].quantity);
      NetChangeOfEntries(s.history, k);
    }
  }

  /**
   * Replacing product `id` by `u` and appending `extra` keeps the store coherent when `u` is valid, keeps
   * its SKU unique, and `extra` either is empty and leaves the quantity alone or is one consistent record
   * of exactly this product's transition.
   */
  lemma SaveKeepsCoherent(s: Snapshot, t: Snapshot, id: ProductId, u: Product, extra: seq<HistoryEntry>)
    requires Coherent(s) && id in s.products
    requires u.id == id && ValidProduct(u) && !SkuTaken(s.products, u.sku, Some(id))
    requires extra == [] ==> u.quantity == s.products[id].quantity
    requires extra != [] ==>
      && |extra| == 1 && Consistent(extra[0]) && extra[0].product == id
      && extra[0].previousQuantity == s.products[id].quantity && extra[0].newQuantity == u.quantity
    requires t == s.(products := s.products[id := u], history := s.history + extra)
    ensures Coherent(t)
  {
    ReplaceKeepsDocuments(s.products, s.productOrder, s.nextId, id, u);
    ReplaceKeepsOrphansOut(s.history, s.products, id, u, extra);
    ReplaceKeepsChains(s.history, s.products, s.initial, id, u, extra);
  }

  lemma ReplaceKeepsDocuments(ps: map<ProductId, Product>, order: seq<ProductId>, nextId: nat, id: ProductId, u: Product)
    requires Indexes(order, ps) && ProductsValid(ps, nextId) && UniqueSkus(ps) && id in ps
    requires u.id == id && ValidProduct(u) && !SkuTaken(ps, u.sku, Some(id))
    ensures Indexes(order, ps[id := u]) && ProductsValid(ps[id := u], nextId) && UniqueSkus(ps[id := u])
  {
    ReplaceKeepsIndex(order, ps, id, u);
    ReplaceKeepsValidity(ps, nextId, id, u);
    ReplaceKeepsSkus(ps, id, u);
  }

  lemma ReplaceKeepsIndex<V>(order: seq<ProductId>, ps: map<ProductId, V>, id: ProductId, u: V)
    requires Indexes(order, ps) && id in ps
    ensures Indexes(order, ps[id := u])
  {
  }

  lemma ReplaceKeepsValidity(ps: map<ProductId, Product>, nextId: nat, id: ProductId, u: Product)
    requires ProductsValid(ps, nextId) && id in ps
    requires u.id == id && ValidProduct(u)
    ensures ProductsValid(ps[id := u], nextId)
  {
  }

  lemma ReplaceKeepsSkus(ps: map<ProductId, Product>, id: ProductId, u: Product)
    requires UniqueSkus(ps) && id in ps && !SkuTaken(ps, u.sku, Some(id))
    ensures UniqueSkus(ps[id := u])
  {
    var after := ps[id := u];
    forall a, b | a in after && b in after && a != b
      ensures after[a].sku != after[b].sku
    {
      if a == id {
        assert !(b in ps && Some(b) != Some(id) && ps[b].sku == u.sku);
      } else if b == id {
        assert !(a in ps && Some(a) != Some(id) && ps[a].sku == u.sku);
      }
    }
  }

  /** A stored product's own SKU is held by no other product. */
  lemma OwnSkuFree(s: Snapshot, id: ProductId)
    requires Coherent(s) && id in s.products
    ensures !SkuTaken(s.products, s.products[id].sku, Some(id))
  {
    var ps := s.products;
    forall k | k in ps && Some(k) != Some(id)
      ensures ps[k].sku != ps[id].sku
    {
    }
  }

  lemma ReplaceKeepsOrphansOut(h: seq<HistoryEntry>, ps: map<ProductId, Product>, id: ProductId, u: Product, extra: seq<HistoryEntry>)
    requires NoOrphans(h, ps) && id in ps
    requires extra != [] ==> |extra| == 1 && Consistent(extra[0]) && extra[0].product == id
    ensures NoOrphans(h + extra, ps[id := u])
  {
    assert forall e :: e in h + extra ==> e in h || e in extra;
  }

  lemma ReplaceKeepsChains(h: seq<HistoryEntry>, ps: map<ProductId, Product>, initial: map<ProductId, int>,
                           id: ProductId, u: Product, extra: seq<HistoryEntry>)
    requires Reconciled(h, ps, initial) && id in ps
    requires extra == [] ==> u.quantity == ps[id].quantity
    requires extra != [] ==>
      && |extra| == 1 && Consistent(extra[0]) && extra[0].product == id
      && extra[0].previousQuantity == ps[id].quantity && extra[0].newQuantity == u.quantity
    ensures Reconciled(h + extra, ps[id := u], initial)
  {
    var after := ps[id := u];
    var h' := h + extra;
    assert after.Keys == ps.Keys;
    forall k | k in after
      ensures Chained(EntriesOf(h', k), initial[k], after[k].quantity)
    {
      if extra != [] && k == id {
        assert extra == [extra[0]];
        ExtendedChain(h, extra[0], initial[k], ps[k].quantity);
      } else {
        UntouchedChain(h, extra, k, initial[k], ps[k].quantity);
      }
    }
  }

  /** Appending a record that starts where its product's chain ends extends that chain to the record's end. */
  lemma ExtendedChain(h: seq<HistoryEntry>, e: HistoryEntry, start: int, q: int)
    requires Chained(EntriesOf(h, e.product), start, q) && e.previousQuantity == q
    ensures Chained(EntriesOf(h + [e], e.product), start, e.newQuantity)
  {
    EntriesOfAppend(h, e, e.product);
    ChainedSnoc(EntriesOf(h, e.product), e, start, q);
  }

  /** Appending nothing, or a record of another product, leaves a product's chain as it was. */
  lemma UntouchedChain(h: seq<HistoryEntry>, extra: seq<HistoryEntry>, k: ProductId, start: int, q: int)
    requires Chained(EntriesOf(h, k), start, q)
    requires |extra| <= 1 && (extra != [] ==> extra[0].product != k)
    ensures Chained(EntriesOf(h + extra, k), start, q)
  {
    if extra == [] {
      assert h + extra == h;
    } else {
      var e := extra[0];
      assert h + extra == h + [e];
      EntriesOfAppend(h, e, k);
      assert EntriesOf(h, k) + [] == EntriesOf(h, k);
    }
  }

  /** A fresh key appended to a collection's natural order keeps it an index of the grown collection. */
  lemma AddKeepsIndex<V>(order: seq<nat>, m: map<nat, V>, id: nat, v: V)
    requires Indexes(order, m) && id !in m
    ensures Indexes(order + [id], m[id := v])
  {
    assert id !in order;
    assert forall k :: k in order + [id] <==> k in order || k == id;
  }

  /** Removing a key from a collection and from its natural order keeps the one an index of the other. */
  lemma RemoveKeepsIndex<V>(order: seq<nat>, m: map<nat, V>, id: nat)
    requires Indexes(order, m)
    ensures Indexes(Without(order, id), m - {id})
  {
  }

  /**
   * Creating product `p` under the next identifier, with no history, keeps the store coherent when `p`
   * is valid and its SKU is not taken; the new product's chain is empty and starts at its own quantity.
   */
  lemma AddKeepsCoherent(s: Snapshot, t: Snapshot, p: Product)
    requires Coherent(s) && p.id == s.nextId && ValidProduct(p)
    requires !SkuTaken(s.products, p.sku, None)
    requires t == s.(products := s.products[p.id := p], productOrder := s.productOrder + [p.id],
                     nextId := s.nextId + 1, initial := s.initial[p.id := p.quantity])
    ensures Coherent(t)
  {
    var id := p.id;
    assert id !in s.products;
    AddKeepsIndex(s.productOrder, s.products, id, p);
    AddKeepsDocuments(s.products, s.nextId, p);
    assert CategoriesValid(s.categories, s.nextId + 1);
    AddKeepsOrphansOut(s.history, s.products, p);
    AddKeepsChains(s.history, s.products, s.initial, p);
  }

  lemma AddKeepsDocuments(ps: map<ProductId, Product>, nextId: nat, p: Product)
    requires ProductsValid(ps, nextId) && UniqueSkus(ps) && p.id == nextId && ValidProduct(p)
    requires !SkuTaken(ps, p.sku, None)
    ensures ProductsValid(ps[p.id := p], nextId + 1) && UniqueSkus(ps[p.id := p])
  {
    AddKeepsValidity(ps, nextId, p);
    AddKeepsSkus(ps, p);
  }

  lemma AddKeepsValidity(ps: map<ProductId, Product>, nextId: nat, p: Product)
    requires ProductsValid(ps, nextId) && p.id == nextId && ValidProduct(p)
    ensures ProductsValid(ps[p.id := p], nextId + 1)
  {
  }

  lemma AddKeepsSkus(ps: map<ProductId, Product>, p: Product)
    requires UniqueSkus(ps) && !SkuTaken(ps, p.sku, None)
    ensures UniqueSkus(ps[p.id := p])
  {
    var after := ps[p.id := p];
    forall a, b | a in after && b in after && a != b
      ensures after[a].sku != after[b].sku
    {
      if a == p.id {
        assert !(b in ps && Some(b) != None && ps[b].sku == p.sku);
      } else if b == p.id {
        assert !(a in ps && Some(a) != None && ps[a].sku == p.sku);
      }
    }
  }

  lemma AddKeepsOrphansOut(h: seq<HistoryEntry>, ps: map<ProductId, Product>, p: Product)
    requires NoOrphans(h, ps)
    ensures NoOrphans(h, ps[p.id := p])
  {
  }

  lemma AddKeepsChains(h: seq<HistoryEntry>, ps: map<ProductId, Product>, initial: map<ProductId, int>, p: Product)
    requires Reconciled(h, ps, initial) && NoOrphans(h, ps) && p.id !in ps
    ensures Reconciled(h, ps[p.id := p], initial[p.id := p.quantity])
  {
    var after := ps[p.id := p];
    var start := initial[p.id := p.quantity];
    forall k | k in after
      ensures Chained(EntriesOf(h, k), start[k], after[k].quantity)
    {
      if k == p.id {
        NoEntriesOf(h, k);
      } else {
        assert EntriesOf(h, k) == EntriesOf(h, k);
      }
    }
  }

  /**
   * Deleting product `id` together with all of its history (the cascade) keeps the store coherent:
   * no record is left that refers to the deleted product.
   */
  lemma RemoveKeepsCoherent(s: Snapshot, t: Snapshot, id: ProductId)
    requires Coherent(s)
    requires t == s.(products := s.products - {id}, productOrder := Without(s.productOrder, id),
                     history := OtherThan(s.history, id), initial := s.initial - {id})
    ensures Coherent(t)
  {
    RemoveKeepsIndex(s.productOrder, s.products, id);
    RemoveKeepsOrphansOut(s.history, s.products, id);
    RemoveKeepsChains(s.history, s.products, s.initial, id);
  }

  lemma RemoveKeepsOrphansOut(h: seq<HistoryEntry>, ps: map<ProductId, Product>, id: ProductId)
    requires NoOrphans(h, ps)
    ensures NoOrphans(OtherThan(h, id), ps - {id})
  {
    forall e | e in OtherThan(h, id)
      ensures Consistent(e) && e.product in ps - {id}
    {
      assert e in h;
    }
  }

  lemma RemoveKeepsChains(h: seq<HistoryEntry>, ps: map<ProductId, Product>, initial: map<ProductId, int>, id: ProductId)
    requires Reconciled(h, ps, initial)
    ensures Reconciled(OtherThan(h, id), ps - {id}, initial - {id})
  {
    var after := ps - {id};
    forall k | k in after
      ensures Chained(EntriesOf(OtherThan(h, id), k), (initial - {id})[k], after[k].quantity)
    {
      EntriesOfOtherThan(h, id, k);
      assert EntriesOf(h, k) == EntriesOf(h, k);
    }
  }

  /** Creating category `c` under the next identifier keeps the store coherent when its name is free. */
  lemma AddCategoryKeepsCoherent(s: Snapshot, t: Snapshot, c: Category)
    requires Coherent(s) && c.id == s.nextId && ValidCategory(c)
    requires !NameTaken(s.categories, c.name, None)
    requires t == s.(categories := s.categories[c.id := c], categoryOrder := s.categoryOrder + [c.id],
                     nextId := s.nextId + 1)
    ensures Coherent(t)
  {
    assert c.id !in s.categories;
    AddKeepsIndex(s.categoryOrder, s.categories, c.id, c);
    AddKeepsCategories(s.categories, s.nextId, c);
    assert ProductsValid(s.products, s.nextId + 1);
  }

  lemma AddKeepsCategories(cs: map<CategoryId, Category>, nextId: nat, c: Category)
    requires CategoriesValid(cs, nextId) && UniqueNames(cs) && c.id == nextId && ValidCategory(c)
    requires !NameTaken(cs, c.name, None)
    ensures CategoriesValid(cs[c.id := c], nextId + 1) && UniqueNames(cs[c.id := c])
  {
    var after := cs[c.id := c];
    forall a, b | a in after && b in after && a != b
      ensures after[a].name != after[b].name
    {
      if a == c.id {
        assert !(b in cs && Some(b) != None && cs[b].name == c.name);
      } else if b == c.id {
        assert !(a in cs && Some(a) != None && cs[a].name == c.name);
      }
    }
  }

  /** Replacing category `id` by `c` keeps the store coherent when `c` is valid and its name stays unique. */
  lemma SaveCategoryKeepsCoherent(s: Snapshot, t: Snapshot, id: CategoryId, c: Category)
    requires Coherent(s) && id in s.categories && c.id == id && ValidCategory(c)
    requires !NameTaken(s.categories, c.name, Some(id))
    requires t == s.(categories := s.categories[id := c])
    ensures Coherent(t)
  {
    ReplaceKeepsIndex(s.categoryOrder, s.categories, id, c);
    ReplaceKeepsCategories(s.categories, s.nextId, id, c);
  }

  lemma ReplaceKeepsCategories(cs: map<CategoryId, Category>, nextId: nat, id: CategoryId, c: Category)
    requires CategoriesValid(cs, nextId) && UniqueNames(cs) && id in cs && c.id == id && ValidCategory(c)
    requires !NameTaken(cs, c.name, Some(id))
    ensures CategoriesValid(cs[id := c], nextId) && UniqueNames(cs[id := c])
  {
    assert CategoriesValid(cs[id := c], nextId);
    ReplaceKeepsNames(cs, id, c);
  }

  lemma ReplaceKeepsNames(cs: map<CategoryId, Category>, id: CategoryId, c: Category)
    requires UniqueNames(cs) && id in cs && !NameTaken(cs, c.name, Some(id))
    ensures UniqueNames(cs[id := c])
  {
    var after := cs[id := c];
    forall a, b | a in after && b in after && a != b
      ensures after[a].name != after[b].name
    {
      if a == id {
        assert !(b in cs && Some(b) != Some(id) && cs[b].name == c.name);
      } else if b == id {
        assert !(a in cs && Some(a) != Some(id) && cs[a].name == c.name);
      }
    }
  }

  /** Removing category `id` keeps the store coherent (products may still name it: there is no foreign key). */
  lemma RemoveCategoryKeepsCoherent(s: Snapshot, t: Snapshot, id: CategoryId)
    requires Coherent(s)
    requires t == s.(categories := s.categories - {id}, categoryOrder := Without(s.categoryOrder, id))
    ensures Coherent(t)
  {
    RemoveKeepsIndex(s.categoryOrder, s.categories, id);
  }
}

=== FILE: outcomes.dfy ===
/** Optional values, the API's error kinds and the result of a controller action. */
module Outcomes {

  datatype Option<+T> = None | Some(value: T) {
    function GetOr(default: T): T {
      match this
      case Some(v) => v
      case None => default
    }
  }

  /** The failures a controller reports to its caller, with the HTTP status each maps to. */
  datatype Error =
    | BadRequest(message: string)   // 400 with a fixed message chosen by the controller
    | NotFound(message: string)     // 404
    | Invalid(paths: seq<string>)   // 400: schema validation failed on these paths
    | DuplicateKey(path: string)    // 400: a unique index rejected the write
    | ServerError(message: string)  // 500: the query itself was rejected by the store

  function Status(e: Error): (code: int)
    ensures 400 <= code < 600
  {
    match e
    case BadRequest(_) => 400
    case NotFound(_) => 404
    case Invalid(_) => 400
    case DuplicateKey(_) => 400
    case ServerError(_) => 500
  }

  datatype Result<+T> = Ok(value: T) | Err(error: Error)
}

=== FILE: pagination_control.dfy ===
/** The pagination control under a listing: when it is shown, which buttons are enabled, and where they lead. */
module PaginationControl {
  import opened Outcomes
  import opened Paging

  /** What the control shows: the current page, the page count and the item count, and the two buttons' states. */
  datatype Controls = Controls(page: int, pages: nat, total: nat, prevDisabled: bool, nextDisabled: bool)

  datatype Button = Prev | Next

  /**
   * The control for a listing's pagination block: nothing without a block or with at most one page;
   * otherwise Prev is disabled exactly on page 1 or before, Next exactly on the last page or after.
   */
  function Pagination(pagination: Option<PageInfo>): (r: Option<Controls>)
    ensures r.None? <==> pagination.None? || pagination.value.pages <= 1
    ensures r.Some? ==>
      && r.value.page == pagination.value.page && r.value.pages == pagination.value.pages
      && r.value.total == pagination.value.total
      && (r.value.prevDisabled <==> r.value.page <= 1)
      && (r.value.nextDisabled <==> r.value.page >= r.value.pages)
  {
    if pagination.None? || pagination.value.pages <= 1 then None
    else
      var info := pagination.value;
      Some(Controls(info.page, info.pages, info.total, info.page <= 1, info.page >= info.pages))
  }

  /** The page a click asks for: none on a disabled button, the previous or the next page otherwise. */
  function Click(c: Controls, b: Button): (r: Option<int>)
    ensures b == Prev ==> (r.Some? <==> !c.prevDisabled) && (r.Some? ==> r.value == c.page - 1)
    ensures b == Next ==> (r.Some? <==> !c.nextDisabled) && (r.Some? ==> r.value == c.page + 1)
  {
    match b
    case Prev => if c.prevDisabled then None else Some(c.page - 1)
    case Next => if c.nextDisabled then None else Some(c.page + 1)
  }

  /** Starting on a page between 1 and the page count, every click the control allows stays in that range. */
  lemma {:induction false} ClickStaysInRange(info: PageInfo, b: Button)
    requires 1 <= info.page <= info.pages
    ensures Pagination(Some(info)).Some? ==>
      var next := Click(Pagination(Some(info)).value, b);
      next.Some? ==> 1 <= next.value <= info.pages
  {
  }

  /**
   * On a listing page the query returned, the Next button is enabled only when the next page has rows,
   * and on page 2 or later Prev leads to a page that has rows.
   */
  lemma NeighbourPagesHaveRows<T>(s: seq<T>, page: int, limit: int)
    requires page >= 1 && limit >= 1
    ensures var c := Pagination(Some(Paginate(s, page, limit).value.pagination));
      c.Some? && !c.value.nextDisabled ==> |PageSlice(s, page + 1, limit)| > 0
    ensures 2 <= page <= PageCount(|s|, limit) ==> |PageSlice(s, page - 1, limit)| > 0
  {
    var pages := PageCount(|s|, limit);
    if page < pages {
      MulMonotone(page, pages - 1, limit);
    }
    if 2 <= page <= pages {
      MulMonotone(page - 2, pages - 1, limit);
    }
  }
}

=== FILE: paging.dfy ===
/** Page-based listing: `.skip((page - 1) * limit).limit(limit)` and the `pagination` block beside it. */
module Paging {
  import opened Outcomes
  import opened Collections

  datatype PageInfo = PageInfo(total: nat, page: int, pages: nat, limit: int)

  datatype Listing<T> = Listing(data: seq<T>, pagination: PageInfo)

  const BadPaging := "page and limit must be positive"

  /** `Math.ceil(total / limit)`. */
  function PageCount(total: nat, limit: int): (pages: nat)
    requires limit >= 1
    ensures pages * limit >= total
    ensures pages == 0 || (pages - 1) * limit < total
    ensures pages == 0 <==> total == 0
  {
    var n := total + limit - 1;
    assert n == (n / limit) * limit + n % limit;
    n / limit
  }

  /** How many rows come before page `page`: the `skip` of the query. */
  function Offset(page: int, limit: int): (n: nat)
    requires page >= 1 && limit >= 1
  {
    MulNonNegative(page - 1, limit);
    (page - 1) * limit
  }

  /** The rows of page `page`: those after the first (page - 1) * limit, at most `limit` of them. */
  function PageSlice<T>(s: seq<T>, page: int, limit: int): (r: seq<T>)
    requires page >= 1 && limit >= 1
    ensures |r| <= limit
    ensures forall i :: 0 <= i < |r| ==> Offset(page, limit) + i < |s| && r[i] == s[Offset(page, limit) + i]
    ensures Offset(page, limit) < |s| ==> |r| == if |s| - Offset(page, limit) < limit then |s| - Offset(page, limit) else limit
    ensures Offset(page, limit) >= |s| ==> r == []
  {
    var skip := Offset(page, limit);
    if skip >= |s| then [] else Take(s[skip..], limit)
  }

  lemma MulNonNegative(a: int, b: int)
    requires a >= 0 && b >= 0
    ensures a * b >= 0
  {
  }

  /**
   * A listing query: the page of `s` the request asks for and its pagination block. Pages start at 1
   * and hold at least one row; a request outside that is rejected.
   */
  function Paginate<T>(s: seq<T>, page: int, limit: int): (r: Result<Listing<T>>)
    ensures r.Ok? <==> page >= 1 && limit >= 1
    ensures r.Err? ==> r.error == ServerError(BadPaging)
    ensures r.Ok? ==> r.value.data == PageSlice(s, page, limit)
    ensures r.Ok? ==> r.value.pagination == PageInfo(|s|, page, PageCount(|s|, limit), limit)
  {
    if page < 1 || limit < 1 then Err(ServerError(BadPaging))
    else Ok(Listing(PageSlice(s, page, limit), PageInfo(|s|, page, PageCount(|s|, limit), limit)))
  }

  /** Row `i` is shown on page i / limit + 1, at position i % limit, and that page is within `pages`. */
  lemma EveryRowOnItsPage<T>(s: seq<T>, limit: int, i: int)
    requires limit >= 1 && 0 <= i < |s|
    ensures 1 <= i / limit + 1 <= PageCount(|s|, limit)
    ensures i % limit < |PageSlice(s, i / limit + 1, limit)|
    ensures PageSlice(s, i / limit + 1, limit)[i % limit] == s[i]
  {
    var q, m := i / limit, i % limit;
    assert i == q * limit + m;
    assert (q + 1 - 1) * limit == q * limit;
    var pages := PageCount(|s|, limit);
    if pages < q + 1 {
      // then pages * limit <= q * limit <= i < |s|, against PageCount's bound
      MulMonotone(pages, q, limit);
      assert false;
    }
  }

  /** A row of the list is on some page between 1 and `pages`: paging loses nothing. */
  lemma EveryRowListed<T>(s: seq<T>, limit: int, x: T)
    requires limit >= 1 && x in s
    ensures exists page :: 1 <= page <= PageCount(|s|, limit) && x in PageSlice(s, page, limit)
  {
    var i :| 0 <= i < |s| && s[i] == x;
    EveryRowOnItsPage(s, limit, i);
    assert PageSlice(s, i / limit + 1, limit)[i % limit] == x;
  }

  /** A page of a list in descending order of `key` is in that order too, and holds only rows of the list. */
  lemma DescendingPage<T>(s: seq<T>, source: seq<T>, page: int, limit: int, key: T -> int)
    requires page >= 1 && limit >= 1 && multiset(s) == multiset(source)
    requires forall i, j :: 0 <= i < j < |s| ==> key(s[i]) >= key(s[j])
    ensures forall i, j :: 0 <= i < j < |PageSlice(s, page, limit)| ==>
      key(PageSlice(s, page, limit)[i]) >= key(PageSlice(s, page, limit)[j])
    ensures forall x :: x in PageSlice(s, page, limit) ==> x in source
  {
    var r := PageSlice(s, page, limit);
    var skip := Offset(page, limit);
    forall i, j | 0 <= i < j < |r|
      ensures key(r[i]) >= key(r[j])
    {
      assert r[i] == s[skip + i] && r[j] == s[skip + j];
    }
    forall x | x in r
      ensures x in source
    {
      assert x in multiset(s);
    }
  }

  lemma MulMonotone(a: int, b: int, c: int)
    requires 0 <= a <= b && c >= 0
    ensures a * c <= b * c
  {
  }
}

=== FILE: product.dfy ===
/** The product document: its fields, the constraints and defaults of its schema, and `isLowStock`. */
module ProductModel {
  import opened Outcomes
  import opened Text

  type ProductId = nat
  type CategoryId = nat
  type UserId = nat

  /** The message of the 404 every product action sends for an unknown id. */
  const ProductNotFound := "Product not found"

  const DefaultQuantity: int := 0
  const DefaultLowStockThreshold: int := 10

  /** A stored product. `price` is in minor currency units; `createdAt` is a timestamp in milliseconds. */
  datatype Product = Product(
    id: ProductId,
    name: string,
    sku: string,
    category: CategoryId,
    quantity: int,
    price: int,
    supplier: string,
    lowStockThreshold: int,
    description: string,
    createdBy: UserId,
    createdAt: int)

  /** The `isLowStock` virtual: at or below the product's own threshold. */
  predicate IsLowStock(p: Product) {
    p.quantity <= p.lowStockThreshold
  }

  /** The category a product refers to: the key its category lookups and groupings use. */
  function CategoryOf(p: Product): CategoryId {
    p.category
  }

  /** The form in which a SKU is stored: upper-cased and trimmed. */
  function NormalizeSku(s: string): string {
    Trim(ToUpper(s))
  }

  /** A stored SKU is already normalised: normalising it again changes nothing. */
  lemma NormalizeSkuIdempotent(s: string)
    ensures NormalizeSku(NormalizeSku(s)) == NormalizeSku(s)
  {
    var u := ToUpper(s);
    UpperTrimCommute(u);
    UpperIdempotent(s);
    TrimIdempotent(u);
  }

  /** A SKU is in stored form exactly when it is trimmed and holds no lower-case letter. */
  lemma NormalFormSku(s: string)
    ensures Trimmed(NormalizeSku(s)) && UpperCased(NormalizeSku(s))
    ensures NormalizeSku(s) == s <==> Trimmed(s) && UpperCased(s)
  {
    var u := ToUpper(s);
    UpperCasedFixedPoints(s);
    TrimFixedPoints(u);
    TrimKeepsUpperCased(u);
    if Trimmed(s) && UpperCased(s) {
      TrimFixedPoints(s);
    }
  }

  /** What the schema guarantees of every stored product. */
  predicate ValidProduct(p: Product) {
    && p.name != "" && Trimmed(p.name)
    && p.sku != "" && Trimmed(p.sku) && UpperCased(p.sku)
    && p.quantity >= 0
    && p.price >= 0
  }

  /** The fields of a create or update request body; `None` is a field the body leaves out. */
  datatype ProductFields = ProductFields(
    name: Option<string>,
    sku: Option<string>,
    category: Option<CategoryId>,
    quantity: Option<int>,
    price: Option<int>,
    supplier: Option<string>,
    lowStockThreshold: Option<int>,
    description: Option<string>)

  /** The schema paths a new document fails validation on, in schema order. */
  function CreateErrors(f: ProductFields): (errs: seq<string>)
    ensures errs == [] <==>
      && f.name.Some? && Trim(f.name.value) != ""
      && f.sku.Some? && NormalizeSku(f.sku.value) != ""
      && f.category.Some?
      && f.quantity.GetOr(DefaultQuantity) >= 0
      && f.price.Some? && f.price.value >= 0
  {
    (if f.name.None? || Trim(f.name.value) == "" then ["name"] else [])
    + (if f.sku.None? || NormalizeSku(f.sku.value) == "" then ["sku"] else [])
    + (if f.category.None? then ["category"] else [])
    + (if f.quantity.GetOr(DefaultQuantity) < 0 then ["quantity"] else [])
    + (if f.price.None? || f.price.value < 0 then ["price"] else [])
  }

  /** The document `Product.create` stores for `f`, or the validation failure. */
  function NewProduct(f: ProductFields, id: ProductId, actor: UserId, now: int): (r: Result<Product>)
    ensures r.Err? <==> CreateErrors(f) != []
    ensures r.Err? ==> r.error == Invalid(CreateErrors(f))
    ensures r.Ok? ==> ValidProduct(r.value) && r.value.id == id && r.value.createdAt == now
    ensures r.Ok? ==> r.value.quantity == f.quantity.GetOr(DefaultQuantity)
    ensures r.Ok? ==> r.value.lowStockThreshold == f.lowStockThreshold.GetOr(DefaultLowStockThreshold)
    ensures r.Ok? ==> r.value.sku == NormalizeSku(f.sku.value) && r.value.name == Trim(f.name.value)
  {
    var errs := CreateErrors(f);
    if errs != [] then Err(Invalid(errs))
    else
      NormalFormSku(f.sku.value);
      TrimFixedPoints(f.name.value);
      Ok(Product(
        id, Trim(f.name.value), NormalizeSku(f.sku.value), f.category.value,
        f.quantity.GetOr(DefaultQuantity), f.price.value, f.supplier.GetOr(""),
        f.lowStockThreshold.GetOr(DefaultLowStockThreshold), f.description.GetOr(""), actor, now))
  }

  /** The schema paths an update fails validation on: only the paths the update sets are checked. */
  function UpdateErrors(f: ProductFields): (errs: seq<string>)
    ensures errs == [] <==>
      && (f.name.Some? ==> Trim(f.name.value) != "")
      && (f.sku.Some? ==> NormalizeSku(f.sku.value) != "")
      && (f.quantity.Some? ==> f.quantity.value >= 0)
      && (f.price.Some? ==> f.price.value >= 0)
  {
    var name := if f.name.Some? && Trim(f.name.value) == "" then ["name"] else [];
    var sku := if f.sku.Some? && NormalizeSku(f.sku.value) == "" then ["sku"] else [];
    var quantity := if f.quantity.Some? && f.quantity.value < 0 then ["quantity"] else [];
    var price := if f.price.Some? && f.price.value < 0 then ["price"] else [];
    assert |name + sku + quantity + price| == |name| + |sku| + |quantity| + |price|;
    name + sku + quantity + price
  }

  /** The stored name for an update that may set it. */
  function PatchedName(current: string, v: Option<string>): (r: string)
    ensures v.None? ==> r == current
    ensures v.Some? ==> r == Trim(v.value) && Trimmed(r)
  {
    match v
    case None => current
    case Some(n) => TrimFixedPoints(n); Trim(n)
  }

  /** The stored SKU for an update that may set it. */
  function PatchedSku(current: string, v: Option<string>): (r: string)
    ensures v.None? ==> r == current
    ensures v.Some? ==> r == NormalizeSku(v.value) && Trimmed(r) && UpperCased(r)
  {
    match v
    case None => current
    case Some(s) => NormalFormSku(s); NormalizeSku(s)
  }

  /** `p` with the fields `f` sets replaced, through the same setters as on create. */
  function ApplyPatch(p: Product, f: ProductFields): (u: Product)
    ensures ValidProduct(p) && UpdateErrors(f) == [] ==> ValidProduct(u)
    ensures u.id == p.id && u.createdBy == p.createdBy && u.createdAt == p.createdAt
    ensures u.name == PatchedName(p.name, f.name) && u.sku == PatchedSku(p.sku, f.sku)
    ensures f.name.Some? ==> Trimmed(u.name)
    ensures f.sku.Some? ==> Trimmed(u.sku) && UpperCased(u.sku)
    ensures f.name.None? ==> u.name == p.name
    ensures f.sku.None? ==> u.sku == p.sku
    ensures u.category == f.category.GetOr(p.category) && u.quantity == f.quantity.GetOr(p.quantity)
    ensures u.price == f.price.GetOr(p.price) && u.supplier == f.supplier.GetOr(p.supplier)
    ensures u.lowStockThreshold == f.lowStockThreshold.GetOr(p.lowStockThreshold)
    ensures u.description == f.description.GetOr(p.description)
  {
    p.(
      name := PatchedName(p.name, f.name),
      sku := PatchedSku(p.sku, f.sku),
      category := f.category.GetOr(p.category),
      quantity := f.quantity.GetOr(p.quantity),
      price := f.price.GetOr(p.price),
      supplier := f.supplier.GetOr(p.supplier),
      lowStockThreshold := f.lowStockThreshold.GetOr(p.lowStockThreshold),
      description := f.description.GetOr(p.description))
  }
}

=== FILE: product_controller.dfy ===
/** The product list, the product create/edit/delete actions and the CSV export. */
module ProductController {
  import opened Outcomes
  import opened Collections
  import opened Sorting
  import opened Text
  import opened Paging
  import opened ProductModel
  import opened CategoryModel
  import opened StockHistoryModel
  import opened LedgerState

  const DefaultPage := 1
  const DefaultLimit := 10
  const EditNote := "Product edit"
  const ProductDeleted := "Product deleted"

  /** The query string of the product list; a missing `page` or `limit` takes its default. */
  datatype ProductQuery = ProductQuery(
    search: string,
    category: Option<CategoryId>,
    lowStock: string,
    page: Option<int>,
    limit: Option<int>)

  /** `t` occurs in `s` as a contiguous run of characters. */
  predicate Contains(s: string, t: string) {
    exists i :: 0 <= i <= |s| && t <= s[i..]
  }

  /** The search term occurs in the name, the SKU or the supplier, ignoring the case of ASCII letters. */
  predicate SearchHit(term: string, p: Product) {
    var t := ToUpper(term);
    Contains(ToUpper(p.name), t) || Contains(ToUpper(p.sku), t) || Contains(ToUpper(p.supplier), t)
  }

  /**
   * The list filter: an empty search term matches everything, a category must match exactly, and only
   * the string "true" turns on the low-stock filter.
   */
  predicate Selected(q: ProductQuery, p: Product) {
    && (q.search == "" || SearchHit(q.search, p))
    && (q.category.None? || p.category == q.category.value)
    && (q.lowStock != "true" || IsLowStock(p))
  }

  /** The products the list query selects, in natural order. */
  function Selection(rows: seq<Product>, q: ProductQuery): (r: seq<Product>)
    ensures forall p :: p in r <==> p in rows && Selected(q, p)
    ensures multiset(r) <= multiset(rows)
  {
    Filter(rows, (p: Product) => Selected(q, p))
  }

  /** The selected products newest first (`sort('-createdAt')`). */
  function ListOrder(rows: seq<Product>, q: ProductQuery): (r: seq<Product>)
    ensures multiset(r) == multiset(Selection(rows, q)) && |r| == |Selection(rows, q)|
    ensures forall i, j :: 0 <= i < j < |r| ==> r[i].createdAt >= r[j].createdAt
  {
    var r := SortBy(Selection(rows, q), (p: Product) => -p.createdAt);
    assert SortedBy(r, (p: Product) => -p.createdAt);
    r
  }

  /**
   * The product list: the selected products, newest first, one page of them, with the total count of
   * the selection and the number of pages.
   */
  function GetProducts(rows: seq<Product>, q: ProductQuery): (r: Result<Listing<Product>>)
    ensures r.Ok? <==> q.page.GetOr(DefaultPage) >= 1 && q.limit.GetOr(DefaultLimit) >= 1
    ensures r.Ok? ==> |r.value.data| <= q.limit.GetOr(DefaultLimit)
    ensures r.Ok? ==> forall p :: p in r.value.data ==> p in rows && Selected(q, p)
    ensures r.Ok? && q.lowStock == "true" ==> forall p :: p in r.value.data ==> IsLowStock(p)
    ensures r.Ok? && q.category.Some? ==> forall p :: p in r.value.data ==> p.category == q.category.value
    ensures r.Ok? ==> forall i, j :: 0 <= i < j < |r.value.data| ==>
      r.value.data[i].createdAt >= r.value.data[j].createdAt
    ensures r.Ok? ==> r.value.pagination.total == |Selection(rows, q)|
    ensures r.Ok? ==> r.value.pagination.pages == PageCount(|Selection(rows, q)|, q.limit.GetOr(DefaultLimit))
    ensures r.Ok? ==> r.value.data == PageSlice(ListOrder(rows, q), q.page.GetOr(DefaultPage), q.limit.GetOr(DefaultLimit))
    ensures r.Ok? ==> r.value.pagination.page == q.page.GetOr(DefaultPage) && r.value.pagination.limit == q.limit.GetOr(DefaultLimit)
    ensures r.Err? ==> r.error == ServerError(BadPaging)
  {
    var page, limit := q.page.GetOr(DefaultPage), q.limit.GetOr(DefaultLimit);
    var sorted := ListOrder(rows, q);
    match Paginate(sorted, page, limit)
    case Err(e) => Err(e)
    case Ok(listing) =>
      DescendingPage(sorted, Selection(rows, q), page, limit, (p: Product) => p.createdAt);
      Ok(listing)
  }

  /** No selected product is lost by paging: each one is on some page between 1 and `pages`. */
  lemma EverySelectedProductListed(rows: seq<Product>, q: ProductQuery, limit: int, p: Product)
    requires limit >= 1 && p in rows && Selected(q, p)
    ensures exists page ::
      && 1 <= page <= PageCount(|Selection(rows, q)|, limit)
      && p in PageSlice(ListOrder(rows, q), page, limit)
  {
    var sorted := ListOrder(rows, q);
    assert p in multiset(Selection(rows, q));
    assert p in multiset(sorted);
    EveryRowListed(sorted, limit, p);
  }

  /**
   * Creates a product from the request body under the next identifier. A body that fails validation or
   * a SKU another product holds is refused and changes nothing; creation never writes history.
   */
  method CreateProduct(db: Ledger, f: ProductFields, actor: UserId, now: int) returns (r: Result<Product>)
    requires db.Valid()
    modifies db
    ensures db.Valid()
    ensures r.Err? ==> unchanged(db)
    ensures CreateErrors(f) != [] ==> r == Err(Invalid(CreateErrors(f)))
    ensures CreateErrors(f) == [] && SkuTaken(old(db.products), NormalizeSku(f.sku.value), None) ==>
      r == Err(DuplicateKey("sku"))
    ensures r.Ok? <==> CreateErrors(f) == [] && !SkuTaken(old(db.products), NormalizeSku(f.sku.value), None)
    ensures r.Ok? ==>
      && r == NewProduct(f, old(db.nextId), actor, now)
      && db.products == old(db.products)[r.value.id := r.value]
      && db.productOrder == old(db.productOrder) + [r.value.id]
      && db.history == old(db.history)
      && db.categories == old(db.categories) && db.categoryOrder == old(db.categoryOrder)
      && db.nextId == old(db.nextId) + 1
      && db.initial == old(db.initial)[r.value.id := r.value.quantity]
  {
    var made := NewProduct(f, db.nextId, actor, now);
    if made.Err? {
      return Err(made.error);
    }
    var product := made.value;
    if SkuTaken(db.products, product.sku, None) {
      return Err(DuplicateKey("sku"));
    }
    db.AddProduct(product);
    r := Ok(product);
  }

  /**
   * The record an edit appends: none when the body leaves the quantity out or repeats the old one,
   * otherwise one IN (the quantity went up) or OUT (it went down) for the difference.
   */
  function EditEntries(id: ProductId, oldQty: int, quantity: Option<int>, actor: UserId, now: int)
    : (r: seq<HistoryEntry>)
    ensures |r| <= 1
    ensures r != [] <==> quantity.Some? && quantity.value != oldQty
    ensures r != [] ==>
      && r[0].product == id && r[0].previousQuantity == oldQty && r[0].newQuantity == quantity.value
      && r[0].kind == (if quantity.value > oldQty then IN else OUT)
      && r[0].quantity == (if quantity.value > oldQty then quantity.value - oldQty else oldQty - quantity.value)
      && r[0].note == EditNote && r[0].performedBy == actor && r[0].createdAt == now
    ensures r != [] && oldQty >= 0 && quantity.value >= 0 ==> Consistent(r[0]) && r[0].kind != ADJUSTMENT
  {
    match quantity
    case None => []
    case Some(q) =>
      if q == oldQty then []
      else
        var diff := q - oldQty;
        [HistoryEntry(id, if diff > 0 then IN else OUT, if diff > 0 then diff else -diff, oldQty, q, EditNote, actor, now)]
  }

  /** The patch keeps SKUs unique when the SKU it sets, if any, belongs to no other product. */
  lemma PatchKeepsSkusUnique(s: Snapshot, id: ProductId, f: ProductFields)
    requires Coherent(s) && id in s.products
    requires f.sku.Some? ==> !SkuTaken(s.products, NormalizeSku(f.sku.value), Some(id))
    ensures !SkuTaken(s.products, ApplyPatch(s.products[id], f).sku, Some(id))
  {
    if f.sku.None? {
      OwnSkuFree(s, id);
    }
  }

  /**
   * Edits product `id` with the fields the body sets. An unknown id, a body that fails validation or a
   * SKU another product holds is refused and changes nothing; otherwise the product is patched and an
   * edit that changes the quantity appends one IN or OUT record of the difference.
   */
  method UpdateProduct(db: Ledger, id: ProductId, f: ProductFields, actor: UserId, now: int)
    returns (r: Result<Product>)
    requires db.Valid()
    modifies db
    ensures db.Valid()
    ensures r.Err? ==> unchanged(db)
    ensures id !in old(db.products) ==> r == Err(NotFound(ProductNotFound))
    ensures id in old(db.products) && UpdateErrors(f) != [] ==> r == Err(Invalid(UpdateErrors(f)))
    ensures id in old(db.products) && UpdateErrors(f) == [] && f.sku.Some? &&
            SkuTaken(old(db.products), NormalizeSku(f.sku.value), Some(id)) ==>
      r == Err(DuplicateKey("sku"))
    ensures r.Ok? <==>
      && id in old(db.products) && UpdateErrors(f) == []
      && !(f.sku.Some? && SkuTaken(old(db.products), NormalizeSku(f.sku.value), Some(id)))
    ensures r.Ok? ==>
      && r.value == ApplyPatch(old(db.products[id]), f)
      && db.products == old(db.products)[id := r.value]
      && db.history == old(db.history) + EditEntries(id, old(db.products[id]).quantity, f.quantity, actor, now)
      && db.productOrder == old(db.productOrder)
      && db.categories == old(db.categories) && db.categoryOrder == old(db.categoryOrder)
      && db.nextId == old(db.nextId) && db.initial == old(db.initial)
  {
    if id !in db.products {
      return Err(NotFound(ProductNotFound));
    }
    var product := db.products[id];
    var oldQty := product.quantity;
    var errs := UpdateErrors(f);
    if errs != [] {
      return Err(Invalid(errs));
    }
    if f.sku.Some? && SkuTaken(db.products, NormalizeSku(f.sku.value), Some(id)) {
      return Err(DuplicateKey("sku"));
    }
    var updated := ApplyPatch(product, f);
    var extra := EditEntries(id, oldQty, f.quantity, actor, now);
    PatchKeepsSkusUnique(db.State(), id, f);
    db.SaveProduct(updated, extra);
    r := Ok(updated);
  }

  /**
   * Deletes product `id` and, in cascade, every history record of it. An unknown id is refused and
   * changes nothing, history included.
   */
  method DeleteProduct(db: Ledger, id: ProductId) returns (r: Result<string>)
    requires db.Valid()
    modifies db
    ensures db.Valid()
    ensures id !in old(db.products) ==> r == Err(NotFound(ProductNotFound)) && unchanged(db)
    ensures id in old(db.products) ==>
      && r == Ok(ProductDeleted)
      && db.products == old(db.products) - {id}
      && db.productOrder == Without(old(db.productOrder), id)
      && db.history == OtherThan(old(db.history), id)
      && db.categories == old(db.categories) && db.categoryOrder == old(db.categoryOrder)
      && db.nextId == old(db.nextId) && db.initial == old(db.initial) - {id}
    ensures forall e :: e in db.history ==> e.product != id
    ensures forall k :: k != id ==> EntriesOf(db.history, k) == EntriesOf(old(db.history), k)
  {
    if id !in db.products {
      NoEntriesOf(db.history, id);
      return Err(NotFound(ProductNotFound));
    }
    ghost var before := db.history;
    db.RemoveProduct(id);
    forall k | k != id
      ensures EntriesOf(db.history, k) == EntriesOf(before, k)
    {
      EntriesOfOtherThan(before, id, k);
    }
    r := Ok(ProductDeleted);
  }

  // ---------------------------------------------------------------------------------------------
  // CSV export

  const CsvHeader: seq<string> := ["Name", "SKU", "Category", "Quantity", "Price", "Supplier", "Date Added"]

  /** The category column: the referenced category's name, or empty when the category is missing. */
  function CategoryName(categories: map<CategoryId, Category>, id: CategoryId): (r: string)
    ensures id !in categories ==> r == ""
    ensures id in categories ==> r == categories[id].name
  {
    if id in categories then categories[id].name else ""
  }

  /** A price in minor units as JavaScript prints the number: no trailing zeros, no decimal point for whole amounts. */
  function PriceText(cents: int): (r: string)
    ensures r != []
    ensures forall i :: 0 <= i < |r| ==> IsDigit(r[i]) || r[i] == '.' || r[i] == '-'
    ensures cents >= 0 && cents % 100 == 0 ==> r == NatText(cents / 100)
  {
    if cents < 0 then "-" + AmountText(-cents) else AmountText(cents)
  }

  function AmountText(cents: nat): (r: string)
    ensures r != []
    ensures forall i :: 0 <= i < |r| ==> IsDigit(r[i]) || r[i] == '.'
    ensures cents % 100 == 0 ==> r == NatText(cents / 100)
  {
    var whole, frac := cents / 100, cents % 100;
    if frac == 0 then NatText(whole)
    else if frac % 10 == 0 then NatText(whole) + "." + [Digit(frac / 10)]
    else NatText(whole) + "." + [Digit(frac / 10), Digit(frac % 10)]
  }

  /** The seven values of a product's row; `dateText` renders `createdAt` as a local date. */
  function CsvFields(p: Product, categories: map<CategoryId, Category>, dateText: int -> string)
    : (r: seq<string>)
    ensures |r| == |CsvHeader|
    ensures r[0] == p.name && r[1] == p.sku && r[2] == CategoryName(categories, p.category)
    ensures r[3] == IntText(p.quantity)
    ensures r[4] == PriceText(p.price) && r[5] == p.supplier && r[6] == dateText(p.createdAt)
  {
    [p.name, p.sku, CategoryName(categories, p.category), IntText(p.quantity), PriceText(p.price),
     p.supplier, dateText(p.createdAt)]
  }

  /** A value wrapped in double quotes (with no escaping of quotes inside it). */
  function Quote(v: string): (r: string)
    ensures |r| == |v| + 2 && r[0] == '"' && r[|r| - 1] == '"' && r[1..|r| - 1] == v
  {
    "\"" + v + "\""
  }

  /** One CSV line: every value quoted, joined by commas. */
  function CsvLine(values: seq<string>): string {
    Join(seq(|values|, i requires 0 <= i < |values| => Quote(values[i])), ",")
  }

  /** The header line followed by one line per product, in order. */
  function CsvLines(rows: seq<Product>, categories: map<CategoryId, Category>, dateText: int -> string)
    : (lines: seq<string>)
    ensures |lines| == |rows| + 1 && lines[0] == CsvLine(CsvHeader)
    ensures forall i :: 0 <= i < |rows| ==> lines[i + 1] == CsvLine(CsvFields(rows[i], categories, dateText))
  {
    var body := seq(|rows|, i requires 0 <= i < |rows| => CsvLine(CsvFields(rows[i], categories, dateText)));
    var lines := [CsvLine(CsvHeader)] + body;
    assert forall i :: 0 <= i < |rows| ==> lines[i + 1] == body[i];
    lines
  }

  /** The export: the header line, then one line per product in natural order, joined by newlines. */
  function ExportCsv(rows: seq<Product>, categories: map<CategoryId, Category>, dateText: int -> string)
    : (csv: string)
    ensures |csv| >= |CsvLine(CsvHeader)| && csv[..|CsvLine(CsvHeader)|] == CsvLine(CsvHeader)
    ensures rows == [] ==> csv == CsvLine(CsvHeader)
    ensures csv == Join(CsvLines(rows, categories, dateText), "\n")
  {
    var lines := CsvLines(rows, categories, dateText);
    JoinStartsWithFirst(lines, "\n");
    Join(lines, "\n")
  }

  lemma JoinStartsWithFirst(items: seq<string>, sep: string)
    requires |items| >= 1
    ensures |Join(items, sep)| >= |items[0]| && Join(items, sep)[..|items[0]|] == items[0]
  {
    if |items| > 1 {
      assert Join(items, sep) == items[0] + (sep + Join(items[1..], sep));
    }
  }

  /** A value without a given character keeps it out of its quoted form too. */
  lemma QuoteAvoids(c: char, v: string)
    requires c != '"' && c !in v
    ensures c !in Quote(v)
  {
    var r := Quote(v);
    forall i | 0 <= i < |r|
      ensures r[i] != c
    {
      if 0 < i < |r| - 1 {
        assert r[i] == r[1..|r| - 1][i - 1];
      }
    }
  }

  /** A line of values none of which contains a newline contains none either. */
  lemma CsvLineHasNoNewline(values: seq<string>)
    requires NoNewlines(values)
    ensures '\n' !in CsvLine(values)
  {
    var quoted := seq(|values|, i requires 0 <= i < |values| => Quote(values[i]));
    forall i | 0 <= i < |quoted|
      ensures '\n' !in quoted[i]
    {
      QuoteAvoids('\n', values[i]);
    }
    if |quoted| >= 1 {
      OccurrencesJoin('\n', quoted, ",");
      SumOccurrencesNone('\n', quoted);
      NoOccurrences('\n', ",");
      NoOccurrences('\n', Join(quoted, ","));
    }
  }

  /** No value of the row contains a newline. */
  predicate NoNewlines(values: seq<string>) {
    forall j :: 0 <= j < |values| ==> '\n' !in values[j]
  }

  /** When no product's values contain a newline, no line of the export does. */
  lemma LinesHaveNoNewline(rows: seq<Product>, categories: map<CategoryId, Category>, dateText: int -> string)
    requires forall i :: 0 <= i < |rows| ==> NoNewlines(CsvFields(rows[i], categories, dateText))
    ensures forall i :: 0 <= i < |CsvLines(rows, categories, dateText)| ==> '\n' !in CsvLines(rows, categories, dateText)[i]
  {
    var lines := CsvLines(rows, categories, dateText);
    forall i | 0 <= i < |lines|
      ensures '\n' !in lines[i]
    {
      if i == 0 {
        CsvLineHasNoNewline(CsvHeader);
      } else {
        CsvLineHasNoNewline(CsvFields(rows[i - 1], categories, dateText));
      }
    }
  }

  /**
   * When no name, SKU, category name, supplier or rendered date contains a newline, the export holds
   * exactly one newline per product: the header line and one line per product.
   */
  lemma {:induction false} ExportLineCount(rows: seq<Product>, categories: map<CategoryId, Category>, dateText: int -> string)
    requires forall i :: 0 <= i < |rows| ==> NoNewlines(CsvFields(rows[i], categories, dateText))
    ensures Occurrences('\n', ExportCsv(rows, categories, dateText)) == |rows|
  {
    var lines := CsvLines(rows, categories, dateText);
    LinesHaveNoNewline(rows, categories, dateText);
    JoinSeparatorCount('\n', lines);
  }

  /** A character other than '"' that no value holds is in none of the quoted values either. */
  lemma QuotedAvoid(c: char, values: seq<string>, quoted: seq<string>)
    requires c != '"' && forall j :: 0 <= j < |values| ==> c !in values[j]
    requires |quoted| == |values| && forall j :: 0 <= j < |values| ==> quoted[j] == Quote(values[j])
    ensures forall j :: 0 <= j < |quoted| ==> c !in quoted[j]
  {
    forall j | 0 <= j < |values|
      ensures c !in Quote(values[j])
    {
      QuoteAvoids(c, values[j]);
    }
  }

  /**
   * A line of values none of which contains a comma holds one comma fewer than it has values, and
   * cutting it at the commas gives back each value in its quotes.
   */
  lemma CsvLineFields(values: seq<string>)
    requires |values| >= 1 && forall j :: 0 <= j < |values| ==> ',' !in values[j]
    ensures Occurrences(',', CsvLine(values)) == |values| - 1
    ensures |Split(CsvLine(values), ',')| == |values|
    ensures forall j :: 0 <= j < |values| ==> Split(CsvLine(values), ',')[j] == Quote(values[j])
  {
    var quoted := seq(|values|, i requires 0 <= i < |values| => Quote(values[i]));
    QuotedAvoid(',', values, quoted);
    assert "," == [','];
    JoinSeparatorCount(',', quoted);
    SplitJoin(quoted, ',');
  }

  /** When no value contains a newline, cutting the export at its newlines gives back its lines. */
  lemma ExportSplitsIntoLines(rows: seq<Product>, categories: map<CategoryId, Category>, dateText: int -> string)
    requires forall i :: 0 <= i < |rows| ==> NoNewlines(CsvFields(rows[i], categories, dateText))
    ensures Split(ExportCsv(rows, categories, dateText), '\n') == CsvLines(rows, categories, dateText)
  {
    LinesHaveNoNewline(rows, categories, dateText);
    assert "\n" == ['\n'];
    SplitJoin(CsvLines(rows, categories, dateText), '\n');
  }

  /**
   * The export read back: when no value contains a newline or a comma, line i + 1 of the file cut at
   * its commas is product i's seven values, each in quotes.
   */
  lemma ExportReadsBack(rows: seq<Product>, categories: map<CategoryId, Category>, dateText: int -> string)
    requires forall i :: 0 <= i < |rows| ==> NoNewlines(CsvFields(rows[i], categories, dateText))
    requires forall i, j :: 0 <= i < |rows| && 0 <= j < |CsvHeader| ==> ',' !in CsvFields(rows[i], categories, dateText)[j]
    ensures |Split(ExportCsv(rows, categories, dateText), '\n')| == |rows| + 1
    ensures forall i, j :: 0 <= i < |rows| && 0 <= j < |CsvHeader| ==>
      && |Split(Split(ExportCsv(rows, categories, dateText), '\n')[i + 1], ',')| == |CsvHeader|
      && Split(Split(ExportCsv(rows, categories, dateText), '\n')[i + 1], ',')[j] == Quote(CsvFields(rows[i], categories, dateText)[j])
  {
    ExportSplitsIntoLines(rows, categories, dateText);
    forall i | 0 <= i < |rows|
      ensures |Split(CsvLine(CsvFields(rows[i], categories, dateText)), ',')| == |CsvHeader|
      ensures forall j :: 0 <= j < |CsvHeader| ==>
        Split(CsvLine(CsvFields(rows[i], categories, dateText)), ',')[j] == Quote(CsvFields(rows[i], categories, dateText)[j])
    {
      CsvLineFields(CsvFields(rows[i], categories, dateText));
    }
  }
}

=== FILE: sorting.dfy ===
/** A stable insertion sort on an integer key: the model of a store query's `.sort(field)`. */
module Sorting {

  predicate SortedBy<T>(s: seq<T>, key: T -> int) {
    forall i, j :: 0 <= i < j < |s| ==> key(s[i]) <= key(s[j])
  }

  /** Puts `x` in front of the first element whose key is not smaller than its own. */
  function Insert<T>(x: T, s: seq<T>, key: T -> int): (r: seq<T>)
    requires SortedBy(s, key)
    ensures SortedBy(r, key)
    ensures multiset(r) == multiset(s) + multiset{x}
    ensures r[0] == x || (s != [] && r[0] == s[0])
  {
    if s == [] || key(x) <= key(s[0]) then [x] + s
    else
      var rest := Insert(x, s[1..], key);
      ConsKeepsSorted(x, s, rest, key);
      [s[0]] + rest
  }

  /** Putting the head of `s` back in front of the insertion into its tail gives a sorted result holding `x` too. */
  lemma ConsKeepsSorted<T>(x: T, s: seq<T>, rest: seq<T>, key: T -> int)
    requires SortedBy(s, key) && s != [] && key(s[0]) < key(x)
    requires SortedBy(rest, key) && multiset(rest) == multiset(s[1..]) + multiset{x}
    requires rest[0] == x || (s[1..] != [] && rest[0] == s[1..][0])
    ensures SortedBy([s[0]] + rest, key)
    ensures multiset([s[0]] + rest) == multiset(s) + multiset{x}
  {
    assert s == [s[0]] + s[1..];
    var r := [s[0]] + rest;
    assert forall j :: 1 <= j < |r| ==> r[j] == rest[j - 1];
    assert forall j :: 0 <= j < |rest| ==> key(s[0]) <= key(rest[0]) <= key(rest[j]);
  }

  /** `s` ordered by ascending key; elements with equal keys keep their relative order. */
  function SortBy<T>(s: seq<T>, key: T -> int): (r: seq<T>)
    ensures SortedBy(r, key)
    ensures multiset(r) == multiset(s)
    ensures |r| == |s|
  {
    if s == [] then []
    else
      assert s == [s[0]] + s[1..];
      Insert(s[0], SortBy(s[1..], key), key)
  }
}

=== FILE: stock_controller.dfy ===
/** Stock movements, the history listing and the low-stock alert list. */
module StockController {
  import opened Outcomes
  import opened Collections
  import opened Sorting
  import opened Paging
  import opened ProductModel
  import opened StockHistoryModel
  import opened LedgerState

  const TypeMessage := "Type must be IN, OUT, or ADJUSTMENT"
  const QuantityMessage := "Quantity must be greater than 0"
  const NotEnoughStock := "Not enough stock"
  /** The history query's defaults for a missing `page` and `limit`. */
  const HistoryPage := 1
  const HistoryLimit := 15

  /** The body of a movement request: a type name, a magnitude and a note, each possibly missing. */
  datatype MovementRequest = MovementRequest(kind: string, quantity: Option<int>, note: Option<string>)

  datatype StockUpdate = StockUpdate(product: Product, entry: HistoryEntry)

  /** The checks made on the body before the product is loaded: first the type, then the magnitude. */
  function CheckRequest(req: MovementRequest): (r: Result<(MovementType, int)>)
    ensures ParseMovementType(req.kind).None? ==> r == Err(BadRequest(TypeMessage))
    ensures ParseMovementType(req.kind).Some? && (req.quantity.None? || req.quantity.value <= 0) ==>
      r == Err(BadRequest(QuantityMessage))
    ensures r.Ok? <==> ParseMovementType(req.kind).Some? && req.quantity.Some? && req.quantity.value > 0
    ensures r.Ok? ==> TypeName(r.value.0) == req.kind && r.value.1 == req.quantity.value
  {
    match ParseMovementType(req.kind)
    case None => Err(BadRequest(TypeMessage))
    case Some(kind) =>
      if req.quantity.None? || req.quantity.value <= 0 then Err(BadRequest(QuantityMessage))
      else Ok((kind, req.quantity.value))
  }

  /** The quantity a movement leaves, or None when an OUT asks for more than is in stock. */
  function ApplyMovement(kind: MovementType, q: int, prev: int): (r: Option<int>)
    ensures r.None? <==> kind == OUT && q > prev
    ensures r.Some? ==> r.value == Effect(kind, q, prev)
    ensures prev >= 0 && q > 0 && r.Some? ==> r.value >= 0
  {
    if kind == OUT && q > prev then None else Some(Effect(kind, q, prev))
  }

  /** The record a successful movement appends. */
  function MovementEntry(id: ProductId, kind: MovementType, q: int, prev: int, next: int,
                         note: Option<string>, actor: UserId, now: int): HistoryEntry
  {
    HistoryEntry(id, kind, q, prev, next, note.GetOr(DefaultNote), actor, now)
  }

  /**
   * Applies a movement to product `id`: on success the product holds the new quantity and exactly one
   * record of the transition is appended; every failure leaves the store untouched.
   */
  method UpdateStock(db: Ledger, id: ProductId, req: MovementRequest, actor: UserId, now: int)
    returns (r: Result<StockUpdate>)
    requires db.Valid()
    modifies db
    ensures db.Valid()
    ensures r.Err? ==> unchanged(db)
    ensures CheckRequest(req).Err? ==> r == Err(CheckRequest(req).error)
    ensures CheckRequest(req).Ok? && id !in old(db.products) ==> r == Err(NotFound(ProductNotFound))
    ensures CheckRequest(req).Ok? && id in old(db.products) ==>
      var kind, q := CheckRequest(req).value.0, CheckRequest(req).value.1;
      var prev := old(db.products[id]).quantity;
      match ApplyMovement(kind, q, prev)
      case None => r == Err(BadRequest(NotEnoughStock))
      case Some(next) =>
        var product := old(db.products[id]).(quantity := next);
        var entry := MovementEntry(id, kind, q, prev, next, req.note, actor, now);
        && r == Ok(StockUpdate(product, entry))
        && db.products == old(db.products)[id := product]
        && db.history == old(db.history) + [entry]
        && db.productOrder == old(db.productOrder)
        && db.categories == old(db.categories) && db.categoryOrder == old(db.categoryOrder)
        && db.nextId == old(db.nextId) && db.initial == old(db.initial)
  {
    var checked := CheckRequest(req);
    if checked.Err? {
      return Err(checked.error);
    }
    var kind, q := checked.value.0, checked.value.1;
    if id !in db.products {
      return Err(NotFound(ProductNotFound));
    }
    var product := db.products[id];
    var prevQty := product.quantity;
    var newQty := prevQty;
    if kind == IN {
      newQty := prevQty + q;
    } else if kind == OUT {
      if q > prevQty {
        return Err(BadRequest(NotEnoughStock));
      }
      newQty := prevQty - q;
    } else {
      newQty := q;
    }
    product := product.(quantity := newQty);
    var entry := MovementEntry(id, kind, q, prevQty, newQty, req.note, actor, now);
    MovementKeepsStoreValid(db.State(), id, kind, q, newQty, entry);
    db.SaveProduct(product, [entry]);
    r := Ok(StockUpdate(product, entry));
  }

  /**
   * The write a movement makes is one the store accepts: the product stays valid with its own SKU, and
   * the record is consistent and describes exactly the product's transition.
   */
  lemma MovementKeepsStoreValid(s: Snapshot, id: ProductId, kind: MovementType, q: int, next: int, e: HistoryEntry)
    requires Coherent(s) && id in s.products && q > 0
    requires ApplyMovement(kind, q, s.products[id].quantity) == Some(next)
    requires e == MovementEntry(id, kind, q, s.products[id].quantity, next, Some(e.note), e.performedBy, e.createdAt)
    ensures ValidProduct(s.products[id].(quantity := next))
    ensures !SkuTaken(s.products, s.products[id].sku, Some(id))
    ensures Consistent(e) && e.product == id && e.previousQuantity == s.products[id].quantity && e.newQuantity == next
  {
    OwnSkuFree(s, id);
  }

  /** Does entry `e` match the history query's optional product filter? */
  predicate MatchesProduct(productId: Option<ProductId>, e: HistoryEntry) {
    productId.None? || e.product == productId.value
  }

  /** The records the history query selects (`{ product: productId }`, or `{}`), oldest first. */
  function Matching(history: seq<HistoryEntry>, productId: Option<ProductId>): (r: seq<HistoryEntry>)
    ensures forall e :: e in r <==> e in history && MatchesProduct(productId, e)
    ensures productId.None? ==> r == history
    ensures productId.Some? ==> r == EntriesOf(history, productId.value)
  {
    match productId
    case None => history
    case Some(id) => EntriesOf(history, id)
  }

  /**
   * The history listing: the records of the given product (of all products when none is given),
   * newest first, one page of them.
   */
  function GetHistory(history: seq<HistoryEntry>, productId: Option<ProductId>, page: Option<int>, limit: Option<int>)
    : (r: Result<Listing<HistoryEntry>>)
    ensures r.Ok? <==> page.GetOr(HistoryPage) >= 1 && limit.GetOr(HistoryLimit) >= 1
    ensures r.Ok? ==> |r.value.data| <= limit.GetOr(HistoryLimit)
    ensures r.Ok? ==> forall e :: e in r.value.data ==> e in history && MatchesProduct(productId, e)
    ensures r.Ok? ==> forall i, j :: 0 <= i < j < |r.value.data| ==>
      r.value.data[i].createdAt >= r.value.data[j].createdAt
    ensures r.Ok? ==> r.value.pagination.total == |Matching(history, productId)|
    ensures r.Ok? ==> r.value.pagination.pages == PageCount(r.value.pagination.total, limit.GetOr(HistoryLimit))
    ensures r.Ok? ==> r.value.data == PageSlice(NewestFirst(Matching(history, productId)), page.GetOr(HistoryPage), limit.GetOr(HistoryLimit))
    ensures r.Ok? ==> r.value.pagination.page == page.GetOr(HistoryPage) && r.value.pagination.limit == limit.GetOr(HistoryLimit)
    ensures r.Err? ==> r.error == ServerError(BadPaging)
  {
    var matching := Matching(history, productId);
    var sorted := NewestFirst(matching);
    var p, n := page.GetOr(HistoryPage), limit.GetOr(HistoryLimit);
    match Paginate(sorted, p, n)
    case Err(e) => Err(e)
    case Ok(listing) =>
      DescendingPage(sorted, matching, p, n, (e: HistoryEntry) => e.createdAt);
      Ok(listing)
  }

  /** No record the query selects is lost by paging: each one is on some page between 1 and `pages`. */
  lemma EveryMatchingEntryListed(history: seq<HistoryEntry>, productId: Option<ProductId>, limit: int, e: HistoryEntry)
    requires limit >= 1 && e in history && MatchesProduct(productId, e)
    ensures exists page ::
      && 1 <= page <= PageCount(|Matching(history, productId)|, limit)
      && e in PageSlice(NewestFirst(Matching(history, productId)), page, limit)
  {
    var sorted := NewestFirst(Matching(history, productId));
    assert e in multiset(Matching(history, productId));
    assert e in multiset(sorted);
    EveryRowListed(sorted, limit, e);
  }

  /** The low-stock alert list: exactly the products at or below their threshold, by ascending quantity. */
  function GetAlerts(products: seq<Product>): (r: seq<Product>)
    ensures forall p :: p in r <==> p in products && IsLowStock(p)
    ensures forall i, j :: 0 <= i < j < |r| ==> r[i].quantity <= r[j].quantity
    ensures multiset(r) == multiset(Filter(products, IsLowStock))
  {
    var low := Filter(products, IsLowStock);
    var r := SortBy(low, (p: Product) => p.quantity);
    assert SortedBy(r, (p: Product) => p.quantity);
    assert forall p :: p in r <==> p in multiset(low);
    r
  }

  /** The alert list is as long as the number of low-stock products: a count of the same predicate agrees with it. */
  lemma AlertCount(products: seq<Product>)
    ensures |GetAlerts(products)| == |Filter(products, IsLowStock)|
  {
    assert |GetAlerts(products)| == |multiset(GetAlerts(products))|;
  }
}

=== FILE: stock_history.dfy ===
/** The stock history record: its movement types, its consistency rule and what a product's records add up to. */
module StockHistoryModel {
  import opened Outcomes
  import opened Collections
  import opened Sorting
  import opened ProductModel

  datatype MovementType = IN | OUT | ADJUSTMENT

  function TypeName(t: MovementType): string {
    match t
    case IN => "IN"
    case OUT => "OUT"
    case ADJUSTMENT => "ADJUSTMENT"
  }

  /** The movement type a request names, if it names one of the three. */
  function ParseMovementType(s: string): (r: Option<MovementType>)
    ensures r.Some? ==> TypeName(r.value) == s
    ensures r.None? <==> forall t :: TypeName(t) != s
  {
    if s == "IN" then Some(IN)
    else if s == "OUT" then Some(OUT)
    else if s == "ADJUSTMENT" then Some(ADJUSTMENT)
    else None
  }

  const DefaultNote := ""

  /** One recorded movement. `quantity` is the magnitude the request supplied. */
  datatype HistoryEntry = HistoryEntry(
    product: ProductId,
    kind: MovementType,
    quantity: int,
    previousQuantity: int,
    newQuantity: int,
    note: string,
    performedBy: UserId,
    createdAt: int)

  /** The quantity a movement of `kind` with magnitude `q` leaves, starting from `prev`. */
  function Effect(kind: MovementType, q: int, prev: int): int {
    match kind
    case IN => prev + q
    case OUT => prev - q
    case ADJUSTMENT => q
  }

  /** A record whose quantities are non-negative and whose transition is the one its type and magnitude make. */
  predicate Consistent(e: HistoryEntry) {
    && e.quantity > 0
    && e.previousQuantity >= 0
    && e.newQuantity >= 0
    && e.newQuantity == Effect(e.kind, e.quantity, e.previousQuantity)
  }

  function Delta(e: HistoryEntry): int {
    e.newQuantity - e.previousQuantity
  }

  /** The signed change a consistent record stands for: +q for IN, -q for OUT, q - prev for ADJUSTMENT. */
  lemma DeltaBySign(e: HistoryEntry)
    requires Consistent(e)
    ensures e.kind == IN ==> Delta(e) == e.quantity
    ensures e.kind == OUT ==> Delta(e) == -e.quantity && e.quantity <= e.previousQuantity
    ensures e.kind == ADJUSTMENT ==> Delta(e) == e.quantity - e.previousQuantity
  {
  }

  /** Σ(newQuantity - previousQuantity) over the records of `h` for product `id`. */
  function NetChange(h: seq<HistoryEntry>, id: ProductId): int {
    if h == [] then 0
    else (if h[0].product == id then Delta(h[0]) else 0) + NetChange(h[1..], id)
  }

  /** The records of `h` for product `id`, oldest first (the query `{ product: id }`). */
  function EntriesOf(h: seq<HistoryEntry>, id: ProductId): (r: seq<HistoryEntry>)
    ensures forall e :: e in r <==> e in h && e.product == id
  {
    Filter(h, (e: HistoryEntry) => e.product == id)
  }

  /** The records of `h` for any product but `id`: what `deleteMany({ product: id })` keeps. */
  function OtherThan(h: seq<HistoryEntry>, id: ProductId): (r: seq<HistoryEntry>)
    ensures forall e :: e in r <==> e in h && e.product != id
  {
    Filter(h, (e: HistoryEntry) => e.product != id)
  }

  /** `h` ordered newest first (`sort('-createdAt')`). */
  function NewestFirst(h: seq<HistoryEntry>): (r: seq<HistoryEntry>)
    ensures multiset(r) == multiset(h) && |r| == |h|
    ensures forall i, j :: 0 <= i < j < |r| ==> r[i].createdAt >= r[j].createdAt
  {
    var r := SortBy(h, (e: HistoryEntry) => -e.createdAt);
    assert SortedBy(r, (e: HistoryEntry) => -e.createdAt);
    r
  }

  /**
   * The records `es` of one product form an unbroken chain from quantity `from` to quantity `to`:
   * each record starts where the previous one ended.
   */
  predicate Chained(es: seq<HistoryEntry>, from: int, to: int) {
    if es == [] then from == to
    else es[0].previousQuantity == from && Chained(es[1..], es[0].newQuantity, to)
  }

  function SumDeltas(es: seq<HistoryEntry>): int {
    if es == [] then 0 else Delta(es[0]) + SumDeltas(es[1..])
  }

  /** A chain's end is its start plus the sum of its records' changes. */
  lemma {:induction false} ChainTelescopes(es: seq<HistoryEntry>, from: int, to: int)
    requires Chained(es, from, to)
    ensures to == from + SumDeltas(es)
  {
    if es != [] {
      ChainTelescopes(es[1..], es[0].newQuantity, to);
    }
  }

  /** The net change of a product is the sum of the changes of its own records. */
  lemma {:induction false} NetChangeOfEntries(h: seq<HistoryEntry>, id: ProductId)
    ensures NetChange(h, id) == SumDeltas(EntriesOf(h, id))
  {
    if h != [] {
      NetChangeOfEntries(h[1..], id);
      assert h == [h[0]] + h[1..];
      assert EntriesOf(h, id) == if h[0].product == id then [h[0]] + EntriesOf(h[1..], id) else EntriesOf(h[1..], id);
    }
  }

  /** Appending one record extends the record list of its own product only. */
  lemma {:induction false} EntriesOfAppend(h: seq<HistoryEntry>, e: HistoryEntry, id: ProductId)
    ensures EntriesOf(h + [e], id) == EntriesOf(h, id) + (if e.product == id then [e] else [])
  {
    if h == [] {
      assert h + [e] == [e];
    } else {
      assert (h + [e])[1..] == h[1..] + [e];
      EntriesOfAppend(h[1..], e, id);
    }
  }

  /** A record that starts where a chain ends extends the chain to its own end. */
  lemma {:induction false} ChainedSnoc(es: seq<HistoryEntry>, e: HistoryEntry, from: int, to: int)
    requires Chained(es, from, to) && e.previousQuantity == to
    ensures Chained(es + [e], from, e.newQuantity)
  {
    if es == [] {
      assert es + [e] == [e];
      assert [e][1..] == [];
    } else {
      assert (es + [e])[1..] == es[1..] + [e];
      ChainedSnoc(es[1..], e, es[0].newQuantity, to);
    }
  }

  /** Deleting one product's records leaves every other product's records as they were. */
  lemma {:induction false} EntriesOfOtherThan(h: seq<HistoryEntry>, id: ProductId, k: ProductId)
    ensures EntriesOf(OtherThan(h, id), k) == if k == id then [] else EntriesOf(h, k)
  {
    if h != [] {
      EntriesOfOtherThan(h[1..], id, k);
      assert h == [h[0]] + h[1..];
      assert OtherThan(h, id) == if h[0].product != id then [h[0]] + OtherThan(h[1..], id) else OtherThan(h[1..], id);
    }
  }

  /** A product no record refers to has no records. */
  lemma {:induction false} NoEntriesOf(h: seq<HistoryEntry>, id: ProductId)
    requires forall e :: e in h ==> e.product != id
    ensures EntriesOf(h, id) == []
  {
    if h != [] {
      assert h[0] in h;
      NoEntriesOf(h[1..], id);
    }
  }
}

=== FILE: text.dfy ===
/** String helpers: the whitespace trimming and upper-casing the schema applies, number rendering and joining. */
module Text {

  /** The characters JavaScript's `trim` removes that this model recognises. */
  predicate IsSpace(c: char) {
    c == ' ' || c == '\t' || c == '\n' || c == '\r' || c == '\U{B}' || c == '\U{C}'
    || c == '\U{A0}' || c == '\U{FEFF}' || c == '\U{2028}' || c == '\U{2029}'
  }

  /** `s` without its leading whitespace. */
  function TrimStart(s: string): (r: string)
    ensures |r| <= |s| && r == s[|s| - |r|..]
    ensures forall k :: 0 <= k < |s| - |r| ==> IsSpace(s[k])
    ensures r == [] || !IsSpace(r[0])
  {
    if s != [] && IsSpace(s[0]) then TrimStart(s[1..]) else s
  }

  /** `s` without its trailing whitespace. */
  function TrimEnd(s: string): (r: string)
    ensures |r| <= |s| && r == s[..|r|]
    ensures forall k :: |r| <= k < |s| ==> IsSpace(s[k])
    ensures r == [] || !IsSpace(r[|r| - 1])
  {
    if s != [] && IsSpace(s[|s| - 1]) then TrimEnd(s[..|s| - 1]) else s
  }

  function Trim(s: string): string {
    TrimEnd(TrimStart(s))
  }

  /** Trimming a trimmed string changes nothing. */
  lemma TrimIdempotent(s: string)
    ensures Trim(Trim(s)) == Trim(s)
  {
    TrimFixedPoints(s);
    TrimFixedPoints(Trim(s));
  }

  /** `s` neither starts nor ends with whitespace. */
  predicate Trimmed(s: string) {
    s == [] || (!IsSpace(s[0]) && !IsSpace(s[|s| - 1]))
  }

  /** Trimming yields a trimmed string, and a string is its own trim exactly when it is trimmed. */
  lemma TrimFixedPoints(s: string)
    ensures Trimmed(Trim(s))
    ensures Trim(s) == s <==> Trimmed(s)
  {
    var t := TrimStart(s);
    var r := TrimEnd(t);
    if r != [] {
      assert r[0] == t[0];
    }
    if Trimmed(s) && s != [] {
      assert TrimStart(s) == s;
      assert TrimEnd(s) == s;
    }
  }

  function UpperChar(c: char): (u: char)
    ensures IsSpace(u) <==> IsSpace(c)
    ensures !('a' <= u <= 'z')
    ensures !('a' <= c <= 'z') ==> u == c
  {
    if 'a' <= c <= 'z' then (c as int - 32) as char else c
  }

  /** Letters a to z replaced by A to Z; every other character kept. */
  function ToUpper(s: string): (r: string)
    ensures |r| == |s|
    ensures forall i :: 0 <= i < |s| ==> r[i] == UpperChar(s[i])
  {
    seq(|s|, i requires 0 <= i < |s| => UpperChar(s[i]))
  }

  /** `s` holds no lower-case ASCII letter. */
  predicate UpperCased(s: string) {
    forall i :: 0 <= i < |s| ==> !('a' <= s[i] <= 'z')
  }

  /** Upper-casing yields an upper-cased string, and changes nothing in one. */
  lemma UpperCasedFixedPoints(s: string)
    ensures UpperCased(ToUpper(s))
    ensures UpperCased(s) ==> ToUpper(s) == s
  {
  }

  /** Trimming an upper-cased string keeps it upper-cased: it only removes characters from the ends. */
  lemma TrimKeepsUpperCased(s: string)
    requires UpperCased(s)
    ensures UpperCased(Trim(s))
  {
    var t := TrimStart(s);
    var r := TrimEnd(t);
    forall i | 0 <= i < |r|
      ensures !('a' <= r[i] <= 'z')
    {
      assert r[i] == t[i] == s[|s| - |t| + i];
    }
  }

  /** Upper-casing an upper-cased string changes nothing. */
  lemma UpperIdempotent(s: string)
    ensures ToUpper(ToUpper(s)) == ToUpper(s)
  {
  }

  lemma {:induction false} UpperTrimStart(s: string)
    ensures ToUpper(TrimStart(s)) == TrimStart(ToUpper(s))
  {
    if s != [] {
      assert IsSpace(ToUpper(s)[0]) <==> IsSpace(s[0]);
      if IsSpace(s[0]) {
        assert ToUpper(s)[1..] == ToUpper(s[1..]);
        UpperTrimStart(s[1..]);
      }
    }
  }

  lemma {:induction false} UpperTrimEnd(s: string)
    ensures ToUpper(TrimEnd(s)) == TrimEnd(ToUpper(s))
  {
    if s != [] {
      assert IsSpace(ToUpper(s)[|s| - 1]) <==> IsSpace(s[|s| - 1]);
      if IsSpace(s[|s| - 1]) {
        assert ToUpper(s)[..|s| - 1] == ToUpper(s[..|s| - 1]);
        UpperTrimEnd(s[..|s| - 1]);
      }
    }
  }

  /** Upper-casing and trimming commute, so the order in which the schema applies them does not matter. */
  lemma UpperTrimCommute(s: string)
    ensures ToUpper(Trim(s)) == Trim(ToUpper(s))
  {
    UpperTrimStart(s);
    UpperTrimEnd(TrimStart(s));
  }

  function Digit(d: nat): char
    requires d < 10
  {
    "0123456789"[d]
  }

  predicate IsDigit(c: char) {
    '0' <= c <= '9'
  }

  /** The decimal digits of `n`, as JavaScript prints a non-negative integer. */
  function NatText(n: nat): (r: string)
    ensures r != [] && forall i :: 0 <= i < |r| ==> IsDigit(r[i])
  {
    if n < 10 then [Digit(n)] else NatText(n / 10) + [Digit(n % 10)]
  }

  function IntText(n: int): string {
    if n < 0 then "-" + NatText(-n) else NatText(n)
  }

  /** `items` separated by `sep` (JavaScript's `join`). */
  function Join(items: seq<string>, sep: string): string {
    if items == [] then ""
    else if |items| == 1 then items[0]
    else items[0] + sep + Join(items[1..], sep)
  }

  /** How many times `c` occurs in `s`. */
  function Occurrences(c: char, s: string): nat {
    if s == [] then 0 else (if s[0] == c then 1 else 0) + Occurrences(c, s[1..])
  }

  lemma {:induction false} OccurrencesAppend(c: char, a: string, b: string)
    ensures Occurrences(c, a + b) == Occurrences(c, a) + Occurrences(c, b)
  {
    if a == [] {
      assert a + b == b;
    } else {
      assert (a + b)[1..] == a[1..] + b;
      OccurrencesAppend(c, a[1..], b);
    }
  }

  /** The occurrences of `c` in a joined string: those of the parts plus those of each separator. */
  lemma {:induction false} OccurrencesJoin(c: char, items: seq<string>, sep: string)
    requires |items| >= 1
    ensures Occurrences(c, Join(items, sep)) == (|items| - 1) * Occurrences(c, sep) + SumOccurrences(c, items)
  {
    if |items| > 1 {
      OccurrencesJoin(c, items[1..], sep);
      OccurrencesAppend(c, items[0] + sep, Join(items[1..], sep));
      OccurrencesAppend(c, items[0], sep);
    }
  }

  function SumOccurrences(c: char, items: seq<string>): nat {
    if items == [] then 0 else Occurrences(c, items[0]) + SumOccurrences(c, items[1..])
  }

  /** A character occurs in `s` no times exactly when it is not in `s`. */
  lemma {:induction false} NoOccurrences(c: char, s: string)
    ensures Occurrences(c, s) == 0 <==> c !in s
  {
    if s != [] {
      NoOccurrences(c, s[1..]);
      assert s == [s[0]] + s[1..];
    }
  }

  /** Parts none of which holds `c` hold no occurrence of it between them. */
  lemma {:induction false} SumOccurrencesNone(c: char, items: seq<string>)
    requires forall i :: 0 <= i < |items| ==> c !in items[i]
    ensures SumOccurrences(c, items) == 0
  {
    if items != [] {
      NoOccurrences(c, items[0]);
      SumOccurrencesNone(c, items[1..]);
    }
  }

  /** Joining parts free of `c` with `c` itself as separator puts exactly one `c` between each two parts. */
  lemma {:induction false} JoinSeparatorCount(c: char, items: seq<string>)
    requires |items| >= 1 && forall i :: 0 <= i < |items| ==> c !in items[i]
    ensures Occurrences(c, Join(items, [c])) == |items| - 1
  {
    NoOccurrences(c, items[0]);
    if |items| > 1 {
      var tail := items[1..];
      assert forall i :: 0 <= i < |tail| ==> tail[i] == items[i + 1];
      JoinSeparatorCount(c, tail);
      assert Occurrences(c, [c]) == 1 by {
        assert [c][0] == c && [c][1..] == [];
      }
      OccurrencesAppend(c, items[0] + [c], Join(tail, [c]));
      OccurrencesAppend(c, items[0], [c]);
    }
  }

  /** `s` cut at every `c` (JavaScript's `split` with a one-character separator): never empty. */
  function Split(s: string, c: char): (r: seq<string>)
    ensures |r| >= 1
  {
    if s == [] then [""]
    else
      var rest := Split(s[1..], c);
      if s[0] == c then [""] + rest else [[s[0]] + rest[0]] + rest[1..]
  }

  /** A string without `c` is not cut at all. */
  lemma {:induction false} SplitFree(s: string, c: char)
    requires c !in s
    ensures Split(s, c) == [s]
  {
    if s != [] {
      SplitFree(s[1..], c);
      assert [s[0]] + s[1..] == s;
    }
  }

  /** A part free of `c` followed by `c` comes off as the first piece. */
  lemma {:induction false} SplitAfter(a: string, b: string, c: char)
    requires c !in a
    ensures Split(a + [c] + b, c) == [a] + Split(b, c)
  {
    var s := a + [c] + b;
    if a == [] {
      assert s[0] == c && s[1..] == b;
    } else {
      assert s[0] == a[0] && s[1..] == a[1..] + [c] + b;
      SplitAfter(a[1..], b, c);
      assert [a[0]] + a[1..] == a;
    }
  }

  /** Splitting parts joined by `c` at `c` gives the parts back, when none of them holds `c`. */
  lemma {:induction false} SplitJoin(items: seq<string>, c: char)
    requires |items| >= 1 && forall i :: 0 <= i < |items| ==> c !in items[i]
    ensures Split(Join(items, [c]), c) == items
  {
    if |items| == 1 {
      SplitFree(items[0], c);
    } else {
      var tail := items[1..];
      assert forall i :: 0 <= i < |tail| ==> tail[i] == items[i + 1];
      SplitJoin(tail, c);
      SplitAfter(items[0], Join(tail, [c]), c);
      assert [items[0]] + tail == items;
    }
  }
}
